=== FILE: README.md ===
# brahma workspace model

A Dafny model of the decision logic of **brahma**, a tool that keeps a
catkin build workspace in step with a set of git repositories. On
`brahma update` it decides which catkin packages belong in the build
workspace, then works out the smallest set of clean, unlink and link
operations that brings the symlink overlay of the catkin source space to
that set. The model also covers `brahma config`, the workspace settings
and paths, a few helpers of `utils.py` and `git_helpers.py`, and two small
scripts that ship in the same repository: the CLion project generator's
dependency clean-up and the argument handling of the Python coverage
wrapper.

The model is pure and functional. Package sets are maps from package name
to `Package(name, dir, realDir)`: `dir` is the package directory as
catkin's scan reports it, below the source directory, and `realDir` is the
same directory with symlinks resolved. They differ for a package of a
repository that is linked into the source directory instead of cloned
there. Everything the tool asks the outside world is an input to the
model:

- catkin's package scan, its topological order and its recursive
  dependency queries form a `SourceTree`;
- git diffs, folder existence and installed packages are the oracles of
  an `Environment`;
- the current overlay is an `Overlay`: each link name with the real path
  it resolves to, plus the set of built packages.

A `log.error` call ends the process, so every one becomes an `Err` of
`Wrappers.Result`.

| module | file | models |
|---|---|---|
| `Wrappers` | wrappers.dfy | `Option`, `Result`, the fatal error conditions |
| `Text` | text.dfy | `startswith`, `endswith`, `find`, `rfind`, `in` on strings |
| `Seqs` | seqs.dfy | duplicates, subsequences, order-preserving filter |
| `Ordering` | ordering.dfy | `list.sort(key=str.lower)`, a stable sort |
| `Packages` | packages.dfy | package maps; name lookup, diff-to-package, filter |
| `Dependencies` | dependencies.dfy | cycle check, upstream, downstream, not installed |
| `Reconcile` | reconcile.dfy | `updateAndCleanPackages` as a plan, and its effect |
| `Repositories` | repositories.dfy | the `git_repositories` dictionary, in insertion order |
| `WorkspaceSettings` | settings.dfy | defaults, ROS distribution, `settingsFile`, `save` |
| `WorkspacePaths` | paths.dfy | `BrahmaWorkspacePaths` |
| `Config` | config.dfy | `brahma config` |
| `Update` | update.dfy | package-set composition of `brahma update` |
| `GitHelpers` | git.dfy | repository name from URL, `hasStash`, clone/link decision |
| `FileUtils` | fileutils.dfy | `getWorkspacePath`, `listHeadersInDiff` |
| `Clion` | clion.dfy | `remove_duplicates` and the empty-name filter |
| `Coverage` | coverage.dfy | `get_output_file`, `get_additional_args` |

The docstring of `updateAndCleanPackages` (utils.py:89) says it removes
every symlink and links every package. The code computes a minimal
difference instead, and the model follows the code. The moved test
(utils.py:115-117) compares the real path of a link with the unresolved
package directory. A package of a symlinked repository therefore counts as
moved on every run and is unlinked and linked again each time
(`Reconcile.RelinkedEveryRun`); the overlay is a fixed point only when
every target package is scanned at its real directory
(`Reconcile.Idempotent`).

## Model

| member | source | states |
|---|---|---|
| Text.Find | best-practices/python/cmake_python_coverage/src/cmake_python_coverage/__init__.py:17 | `str.find`: -1 exactly when the pattern does not occur; otherwise an occurrence with none before it |
| Text.RFind | best-practices/cpp/brahma/brahma/git_helpers.py:149-150 | `str.rfind`: -1 exactly when the pattern does not occur; otherwise an occurrence with none after it |
| Ordering.SortByLowerCorrect | best-practices/cpp/brahma/brahma/BrahmaWorkspaceSettings.py:160-163 | `sort(key=str.lower)` gives a list in lower-case key order that is a permutation of its input, and is stable: the elements of each key keep their relative order |
| Ordering.SortSortedIsIdentity | best-practices/cpp/brahma/brahma/BrahmaWorkspaceSettings.py:160-163 | a list already in key order is left unchanged |
| Ordering.SortKeepsDistinct | best-practices/cpp/brahma/brahma/BrahmaWorkspaceSettings.py:160-163 | sorting a list without duplicates gives a list without duplicates |
| Ordering.LexLeTransitive | best-practices/cpp/brahma/brahma/BrahmaWorkspaceSettings.py:161 | Python's string comparison, which the sort uses on keys, is transitive |
| Packages.AllPackages | best-practices/cpp/brahma/brahma/utils.py:257-270 | one entry per name of the scan; the entry is the last scanned package of that name |
| Packages.PackagesFromPackageNames | best-practices/cpp/brahma/brahma/utils.py:295-320 | fails exactly when the source directory has no package; otherwise holds exactly the requested names found in the scan, each mapped to the first package of that name |
| Packages.PackagesFromFileList | best-practices/cpp/brahma/brahma/utils.py:273-292 | a package is selected exactly when some changed file lies inside its real directory, and each selected entry is a scanned package that contains one of the files |
| Packages.SiblingDirectoryNotMatched | best-practices/cpp/brahma/brahma/utils.py:287-290 | a file in a sibling directory whose name extends the package directory's name is not in the package |
| Packages.FilteredPackages | best-practices/cpp/brahma/brahma/utils.py:417-436 | the input restricted to the names of the filter tree or the filter roots; roots in the input are always kept, and nothing outside the input is added |
| Packages.Merge | best-practices/cpp/brahma/brahma/brahma_update.py:159 | `dict.update`: the union of the names, where the second map wins; merging two maps drawn from the scan gives a map drawn from the scan |
| Packages.FirstIsLast | best-practices/cpp/brahma/brahma/utils.py:257-270 | with unique package names, the first-found and the last-found package of a name coincide |
| Dependencies.AssertAcyclic | best-practices/cpp/brahma/brahma/utils.py:323-333 | fails exactly when the topological order ends in an invalid entry, and reports that entry |
| Dependencies.Upstream | best-practices/cpp/brahma/brahma/utils.py:374-394 | fails exactly on a cycle; otherwise the upstream names of the packages, each mapped to its scanned package |
| Dependencies.Downstream | best-practices/cpp/brahma/brahma/utils.py:336-356 | fails exactly on a cycle; otherwise the downstream names, each mapped to its scanned package |
| Dependencies.NotInstalledUpstream | best-practices/cpp/brahma/brahma/utils.py:397-414 | the upstream names minus the installed ones; disjoint from the installed names and a sub-map of the upstream map |
| Reconcile.Classify | best-practices/cpp/brahma/brahma/utils.py:105-110 | removed, added and kept are pairwise disjoint and together cover existing and target names; removed are only existing, added only target, kept both |
| Reconcile.MovedPackages | best-practices/cpp/brahma/brahma/utils.py:112-118 | the kept names whose link resolves elsewhere than the target package's directory as scanned, unresolved; a subset of the kept names |
| Reconcile.DownstreamToClean | best-practices/cpp/brahma/brahma/utils.py:128-141 | the downstream query is made, and can fail, only when some package changed; the result is the existing downstream dependents |
| Reconcile.UpdateAndCleanPackages | best-practices/cpp/brahma/brahma/utils.py:87-159 | the clean set is within the built packages and never holds the prebuild package; a built package is cleaned exactly when it is not kept or depends on a changed package; removed names are unlinked, added names linked, and a kept name is unlinked and relinked exactly when it moved |
| Reconcile.ApplyReachesTarget | best-practices/cpp/brahma/brahma/utils.py:145-159 | given that each existing link records a real path, after the clean, unlink and link phases the overlay links exactly the target names, each resolving to its package's real directory, and no build output is left for a name outside the target |
| Reconcile.LinksReachTarget | best-practices/cpp/brahma/brahma/utils.py:151-159 | any plan that unlinks removed and moved names and links added and moved names reaches the target links, given that each existing link records a real path |
| Reconcile.NoOrphanedBuild | best-practices/cpp/brahma/brahma/utils.py:122-149 | after the plan, every name that still has build output is a target name |
| Reconcile.RelinkedEveryRun | best-practices/cpp/brahma/brahma/utils.py:112-159 | a target package whose scanned directory is not its real directory is unlinked and linked again by the next run, after the plan that linked it was applied |
| Reconcile.CleanPrecedesUnlink | best-practices/cpp/brahma/brahma/utils.py:143-154 | cleaning touches no link, and a name unlinked for good has no build output left once the clean and unlink phases ran |
| Reconcile.Converged | best-practices/cpp/brahma/brahma/utils.py:104-159 | an overlay that links exactly the target names, each link resolving to the package's scanned directory, and has no dangling build, gets the empty plan |
| Reconcile.Idempotent | best-practices/cpp/brahma/brahma/utils.py:87-159 | when every target package is scanned at its real directory, reconciling the overlay that a plan produced, against the same target, gives the empty plan |
| Repositories.Replace | best-practices/cpp/brahma/brahma/BrahmaWorkspaceSettings.py:94 | overwriting a key keeps the table's order and paths, changes only that path's entry, and leaves the table alone when the path is absent |
| Repositories.ReplaceAsMap | best-practices/cpp/brahma/brahma/BrahmaWorkspaceSettings.py:94 | seen as a dictionary, overwriting in place updates exactly the one key |
| Repositories.AddRepository | best-practices/cpp/brahma/brahma/BrahmaWorkspaceSettings.py:83-94 | the dictionary afterwards maps the path to `[url, base_branch]` and is otherwise unchanged; an existing key keeps its position, a new key goes last |
| Repositories.AppendNew | best-practices/cpp/brahma/brahma/BrahmaWorkspaceSettings.py:94 | appending a new path keeps paths unique and adds exactly that key to the dictionary |
| Repositories.RemoveRepository | best-practices/cpp/brahma/brahma/BrahmaWorkspaceSettings.py:96-103 | deletes only that key, keeps paths unique, and changes nothing when the key is absent |
| Repositories.ClearRepositories | best-practices/cpp/brahma/brahma/BrahmaWorkspaceSettings.py:105-109 | the dictionary is empty afterwards |
| WorkspaceSettings.ChooseRosDistro | best-practices/cpp/brahma/brahma/BrahmaWorkspaceSettings.py:60-78 | a non-empty `ROS_DISTRO` wins; otherwise the single installation is used, and none or several installations are the two distinct errors |
| WorkspaceSettings.NewSettings | best-practices/cpp/brahma/brahma/BrahmaWorkspaceSettings.py:44-78 | fails exactly when no distribution can be chosen; otherwise downstream on, upstream, missing and complete overlay off, empty lists and repositories, IDE "clion", and the chosen distribution |
| WorkspaceSettings.SettingsFileInConfigurationDirectory | best-practices/cpp/brahma/brahma/BrahmaWorkspaceSettings.py:137-144 | the settings file is `settings.yaml` inside the workspace's configuration directory, distinct from the paths file |
| WorkspaceSettings.SortedList | best-practices/cpp/brahma/brahma/BrahmaWorkspaceSettings.py:160-163 | a saved list is in key order, a stable permutation of the list, with the same elements and no new duplicates |
| WorkspaceSettings.Save | best-practices/cpp/brahma/brahma/BrahmaWorkspaceSettings.py:153-165 | both package lists become stable key-ordered permutations of themselves, and nothing else in the settings changes |
| WorkspaceSettings.SaveIdempotent | best-practices/cpp/brahma/brahma/BrahmaWorkspaceSettings.py:159-163 | saving settings twice is the same as saving once |
| WorkspacePaths.NewPaths | best-practices/cpp/brahma/brahma/BrahmaWorkspacePaths.py:26-29 | the catkin directory is `workspace + "/catkin_ws"` and the source directory `workspace + "/source"`; they are distinct and inside the workspace |
| WorkspacePaths.DerivedPathsUnderWorkspace | best-practices/cpp/brahma/brahma/BrahmaWorkspacePaths.py:26-57 | every derived path lies under the workspace; the catkin source space lies under the catkin directory; the source, catkin source and configuration directories differ; the log directory is the configuration directory, and the configuration file lies inside it |
| Config.ApplyFlag | best-practices/cpp/brahma/brahma/brahma_config.py:30-43 | the negative flag wins; the positive flag alone sets the value; neither leaves it unchanged |
| Config.ListOfSet | best-practices/cpp/brahma/brahma/brahma_config.py:51 | `list(set)`: each element of the set exactly once |
| Config.UpdateList | best-practices/cpp/brahma/brahma/brahma_config.py:45-51 | the clear flag gives the empty list; otherwise exactly `(old ∪ add) − remove`, without duplicates |
| Config.ApplyArgs | best-practices/cpp/brahma/brahma/brahma_config.py:30-69 | each boolean setting follows its flag pair; the IDE and distribution change only when given; repositories and complete overlay are untouched |
| Config.Configure | best-practices/cpp/brahma/brahma/brahma_config.py:16-74 | the flag precedence of every setting, the clear/add/remove algebra of both lists, and lists that are sorted and free of duplicates once saved |
| Update.ResolveFilter | best-practices/cpp/brahma/brahma/brahma_update.py:52-56 | no filter without filter packages; otherwise fails exactly on an empty source directory or a cycle, else the found roots and exactly their upstream tree |
| Update.Contribution | best-practices/cpp/brahma/brahma/brahma_update.py:72-73 | a repository without a base branch contributes nothing |
| Update.CollectDiffSucceeds | best-practices/cpp/brahma/brahma/brahma_update.py:66-133 | the diff loop aborts exactly when a repository with a base branch has no folder, its diff cannot be read (the folder is no git repository, the checkout or fetch of a missing base branch fails, the head is detached, or the base branch does not resolve), or two repositories yield the same package name |
| Update.UnreadableDiffStops | best-practices/cpp/brahma/brahma/brahma_update.py:72-122 | an existing repository folder whose diff cannot be read ends the run with that folder's error, before later repositories are looked at |
| Update.CollectDiffContents | best-practices/cpp/brahma/brahma/brahma_update.py:66-133 | on success the diff packages are exactly the union of every repository's contribution, each entry as contributed |
| Update.CollectDiffFromSources | best-practices/cpp/brahma/brahma/brahma_update.py:122-133 | every diff package is a scanned package under its name |
| Update.UpstreamStep | best-practices/cpp/brahma/brahma/brahma_update.py:136-141 | upstream packages only with the flag set and a non-empty diff; the query can fail only then |
| Update.DownstreamStep | best-practices/cpp/brahma/brahma/brahma_update.py:144-156 | downstream packages only with the flag set and a non-empty diff; the downstream-only filter restricts them to the filter tree and roots |
| Update.WithDependencies | best-practices/cpp/brahma/brahma/brahma_update.py:135-159 | the union of diff, upstream and downstream names; the filter touches only the downstream part, and every name beyond the diff is the scanned package of that name |
| Update.GlobalFilter | best-practices/cpp/brahma/brahma/brahma_update.py:161-166 | with filter packages, the whole-set scope and a non-empty set, the set is restricted to the filter tree and roots; otherwise it is unchanged |
| Update.AddExplicit | best-practices/cpp/brahma/brahma/brahma_update.py:168-175 | every explicit name found in the scan is added, mapped to its first scanned package; other entries are kept; fails only on an empty source directory |
| Update.AddMissing | best-practices/cpp/brahma/brahma/brahma_update.py:177-189 | the query runs on any non-empty set; without the flag the set is unchanged, with it exactly the not-installed upstream names are added |
| Update.CompleteOverlayTarget | best-practices/cpp/brahma/brahma/brahma_update.py:59-63 | in a complete overlay the target holds exactly the scanned names, whatever the filter, explicit and missing settings; with unique names it is exactly every source package |
| Update.CompleteFiltered | best-practices/cpp/brahma/brahma/brahma_update.py:204-206 | when the global filter replaced the dictionary, the override restores every source package |
| Update.CompleteUnfiltered | best-practices/cpp/brahma/brahma/brahma_update.py:169-189 | otherwise the explicit and missing steps update the shared dictionary of every source package in place |
| Update.TargetFromSources | best-practices/cpp/brahma/brahma/brahma_update.py:59-206 | whatever the settings, every target entry is a scanned package under its own name |
| Update.ExplicitInTarget | best-practices/cpp/brahma/brahma/brahma_update.py:168-175 | every explicit name found in the scan ends up in the target |
| Update.DiffOnlyTarget | best-practices/cpp/brahma/brahma/brahma_update.py:66-189 | with every option off, the target is the diff packages, and the missing-package query can still fail it |
| Update.GlobalFilterBoundsTarget | best-practices/cpp/brahma/brahma/brahma_update.py:161-175 | without complete overlay and without missing dependencies, with the whole-set filter scope, every target name is in the filter tree, among the filter roots, or an explicit name |
| Update.Run | best-practices/cpp/brahma/brahma/brahma_update.py:48-215 | on success the target comes from the scan; given that each existing link records a real path, applying the plan links exactly the target; no build output is orphaned; the saved lists are sorted; a complete overlay links every scanned name |
| GitHelpers.RepoNameFromURL | best-practices/cpp/brahma/brahma/git_helpers.py:140-157 | fails exactly when there is no '/' or the last ".git" starts at or before the last '/'; otherwise the text after the last '/' up to the last ".git", or to the end without one; it never holds a '/' |
| GitHelpers.NameRoundTrip | best-practices/cpp/brahma/brahma/git_helpers.py:149-157 | `host/name.git` gives back `name` for any name without '/' |
| GitHelpers.NameWithoutSuffix | best-practices/cpp/brahma/brahma/git_helpers.py:151-152 | with no ".git" anywhere, `host/name` gives back `name` |
| GitHelpers.NameCutAtInnerSuffix | best-practices/cpp/brahma/brahma/git_helpers.py:150-157 | `h/x.github` gives `x`, not `x.github` |
| GitHelpers.RepoNameFromURLSuffix | best-practices/cpp/brahma/brahma/git_helpers.py:140-157 | corrected version: fails exactly when there is no '/'; otherwise the text after the last '/', without a final ".git" |
| GitHelpers.SuffixNameRoundTrip | best-practices/cpp/brahma/brahma/git_helpers.py:140-157 | corrected version: every last path component comes back, with or without ".git" |
| GitHelpers.HasStash | best-practices/cpp/brahma/brahma/git_helpers.py:254-255 | true exactly when the stash name occurs in the stash output |
| GitHelpers.PlanRepository | best-practices/cpp/brahma/brahma/git_helpers.py:75-92 | an existing folder is kept; otherwise a ".git" URL is cloned, else an existing local path is linked, else the entry is skipped; only a created folder gets its base branch checked out |
| GitHelpers.CloneRepository | best-practices/cpp/brahma/brahma/git_helpers.py:44-59 | succeeds exactly when the target does not exist and the clone works; otherwise names which of the two failed |
| GitHelpers.CreateFolder | best-practices/cpp/brahma/brahma/git_helpers.py:80-92 | for a created folder: a failing clone is reported as such; otherwise the run ends unless the new folder can be opened as a repository and fetched from `origin` (`getRepository` and `checkoutBranch`'s unguarded fetch); keeping or skipping a folder cannot fail |
| GitHelpers.CloneOrLinkRepositories | best-practices/cpp/brahma/brahma/git_helpers.py:62-92 | succeeds exactly when every planned clone works and every folder the loop creates, by clone or by symlink, can be opened and fetched; then takes each repository's planned step in table order |
| GitHelpers.LinkToNonRepositoryFails | best-practices/cpp/brahma/brahma/git_helpers.py:81-90 | an existing local path that is not a usable repository is symlinked and then ends the run, instead of the loop succeeding |
| GitHelpers.CheckoutOnlyWhenCreated | best-practices/cpp/brahma/brahma/git_helpers.py:75-92 | a base branch is checked out only where no folder existed before the loop; when every folder exists, every repository is left as it is |
| FileUtils.DirnameDropsLast | best-practices/cpp/brahma/brahma/utils.py:52 | `dirname` of a normalised absolute path drops its last component |
| FileUtils.WorkspacePath | best-practices/cpp/brahma/brahma/utils.py:39-53 | `None` exactly when no directory from `dir` up to, but not including, the root holds `.brahma`; otherwise the nearest such directory |
| FileUtils.MatchesHeaderIsPattern | best-practices/cpp/brahma/brahma/utils.py:222-224 | the suffix test accepts exactly the paths the header regular expression matches |
| FileUtils.HeadersInDiff | best-practices/cpp/brahma/brahma/utils.py:210-226 | exactly the paths of the given change type that look like headers, kept in diff order (a subsequence of the diff's paths) |
| Clion.RemoveDuplicates | best-practices/cpp/clion_template_project/init_clion.py:15-20 | the first occurrence of each element, in order: no duplicates and the same elements as the input |
| Clion.FirstOccurrencesIdempotent | best-practices/cpp/clion_template_project/init_clion.py:15-20 | removing duplicates twice is removing them once |
| Clion.FirstOccurrencesSubsequence | best-practices/cpp/clion_template_project/init_clion.py:15-20 | the kept elements keep their original order |
| Clion.FirstOccurrencesOfDistinct | best-practices/cpp/clion_template_project/init_clion.py:15-20 | a list without duplicates comes back unchanged |
| Clion.NonEmptyNames | best-practices/cpp/clion_template_project/init_clion.py:87 | drops exactly the empty names and keeps the order |
| Clion.FinalDependencies | best-practices/cpp/clion_template_project/init_clion.py:86-87 | the final dependency list has no empty name and no duplicate, and holds every other input name |
| Coverage.SecondField | best-practices/python/cmake_python_coverage/src/cmake_python_coverage/__init__.py:17 | element 1 of the split: the text from just after the first separator up to the next separator or the end; fails exactly when the separator is absent; the field never holds the separator |
| Coverage.OutputFile | best-practices/python/cmake_python_coverage/src/cmake_python_coverage/__init__.py:14-19 | fails with "no output file" exactly when no argument starts with `--gtest_output` |
| Coverage.OutputFileFromFirst | best-practices/python/cmake_python_coverage/src/cmake_python_coverage/__init__.py:15-17 | the first `--gtest_output` argument decides the result |
| Coverage.OutputFileRoundTrip | best-practices/python/cmake_python_coverage/src/cmake_python_coverage/__init__.py:15-17 | `--gtest_output=xml:<file>` gives back `<file>` |
| Coverage.AdditionalArgs | best-practices/python/cmake_python_coverage/src/cmake_python_coverage/__init__.py:22-28 | the arguments after the first that start with neither `__` nor `--gtest_output`, in their original order |

## Left out

- Reconcile.ApplyReachesTarget: assumes that an existing link records a real path (`Reconcile.RealLinks`), so a scanned directory equal to it is already real. `realpath` guarantees this; the model takes it as a hypothesis because it does not model path resolution. `Reconcile.LinksReachTarget`, `Reconcile.Idempotent`, `Reconcile.RelinkedEveryRun` and `Update.Run` take the same hypothesis.
- Git operations (fetch, pull, stash, merge, checkout, diff, the clone itself) are library calls. A repository's diff is the `diffOf` oracle of `Update.Environment`; whether it can be read at all, which covers every git call of the diff loop that can end the run (brahma_update.py:75-122, git_helpers.py:120, 214, 222, utils.py:179, 202), is its `diffReadable` oracle, and a failure is `DiffUnreadable`. Folder existence and clone success are the `present` and `cloneSucceeds` oracles of `GitHelpers`. Whether a created folder can be symlinked, opened by `getRepository` as a git repository and fetched from `origin` (git_helpers.py:83, 88, 118-120, 214) is the single `usable` oracle: any of these failures ends the run as `RepositoryNotUsable`, whether the source reports it through `log.error` or an uncaught exception.
- The clone step of `brahma update` (brahma_update.py:39) is modelled by `GitHelpers.CloneOrLinkRepositories`, but it is not chained into `Update.Run`: the folders it creates reach the composition only through `repoExists`. `present` is one snapshot taken before the loop, so a folder created earlier in the same loop is not seen by a later entry.
- The effects on git state of the diff loop (brahma_update.py:79-116: fetch, stash, pull, merge, the initial checkout of a missing base branch) and the warnings of `warnIfDeletedHeaders` are left out; only whether these calls end the run is modelled, through `diffReadable`. `hasStash` is modelled on its own.
- `Reconcile.LinkPhase` names each new link after its map key, where utils.py:159 uses `package.name`; the two agree for targets keyed by name, which every target of `Update.ComposeTarget` is (`Update.TargetFromSources`).
- catkin_pkg and catkin_tools are the opaque `SourceTree`: the scan, the topological order, and the recursive dependency queries. No closure property of the dependency relations is claimed.
- The installed-package index (utils.py:408-413) is keyed by path in the source but compared with names. The model takes the installed names as a set.
- Filesystem queries and path normalisation (`abspath`, `realpath`, `readlink`, `symlink`, `unlink`, `rmtree`) are left out. `FileUtils.WorkspacePath` takes the components of an already normalised absolute path, and `FileUtils.Dirname` is only for such paths. Overlay links are given as the real paths they resolve to, and the scan gives each package both its scanned and its real directory.
- `catkin_ws.cleanPackages` is modelled only as removing build output from the overlay.
- `CatkinWorkspace.py`, YAML loading and saving, logging, argparse, `main.py`, `summary.py`, and the `create`, `init`, `clean` and `info` commands are orchestration or I/O.
- IDE templating (`ide/clion.py`, `updateFileFromTemplate`) is file generation and copies.
- `run_pytest` and `run_pytest_coverage` (__init__.py:41-74) are orchestration; `run_pytest_coverage` hands `get_additional_args` the leftovers of `parse_known_args()`, which do not start with the program name, so the first leftover is never forwarded. `Coverage.AdditionalArgs` models the function as written, dropping the first argument.
- Subprocess-driven code is left out: `sum_coverage.py`, `create_cache_dir_args`, and the `rospack`/`catkin` parts of `init_clion.py`.
- The machine-learning template project, the setup scripts and the tests are not part of this model.
- `Ordering.Lower` lower-cases ASCII letters only; `str.lower` also folds other Unicode letters.
- `Config.ListOfSet` returns the set's elements in an order the model leaves open, as CPython's set order is.
- `FileUtils.HeadersInDiff` models `iter_change_type` as equality on a change-type field of each diff item.
- `Clion.NonEmptyNames` models `dep is not ''` as inequality with the empty string. CPython interns the empty string, so the two agree there.
- `Update.CompleteOverlayTarget` states the complete overlay's target for unique package names. With duplicate names, `AllPackages` keeps the last package of a name while the explicit step takes the first; the override at brahma_update.py:205-206 then yields the aliased dictionary that the explicit and missing steps updated in place. `Update.Complete` models that case as written.

## Findings

| source | as written | input that shows it | evidently intended | confidence | as-written member | corrected member |
|---|---|---|---|---|---|---|
| best-practices/cpp/brahma/brahma/git_helpers.py:150-157 | the name ends at the last ".git" anywhere after the last '/' | `h/x.github`, as for a repository named `user.github.io`, gives `x` | strip ".git" only as a final suffix, giving `x.github` | not executed | GitHelpers.NameCutAtInnerSuffix | GitHelpers.RepoNameFromURLSuffix |

=== FILE: clion.dfy ===
/** The dependency list clean-up of the CLion project generator
    (clion_template_project/init_clion.py). */
module Clion {
  import opened Seqs

  /** Reference definition: the elements of `s` that occur there for the
      first time, in their original order. */
  function FirstOccurrences<T(==)>(s: seq<T>): seq<T> {
    if s == [] then []
    else
      var init := s[..|s| - 1];
      var last := s[|s| - 1];
      FirstOccurrences(init) + (if last in init then [] else [last])
  }

  /** `remove_duplicates` (init_clion.py:15-20): appends each element the
      output does not already hold. */
  method RemoveDuplicates<T(==)>(duplicate: seq<T>) returns (r: seq<T>)
    ensures r == FirstOccurrences(duplicate)
    ensures NoDuplicates(r)
    ensures forall x :: x in r <==> x in duplicate
  {
    r := [];
    var i := 0;
    while i < |duplicate|
      invariant 0 <= i <= |duplicate|
      invariant r == FirstOccurrences(duplicate[..i])
    {
      FirstOccurrencesFacts(duplicate[..i]);
      assert duplicate[..i + 1][..i] == duplicate[..i];
      if duplicate[i] !in r {
        r := r + [duplicate[i]];
      }
      i := i + 1;
    }
    assert duplicate[..i] == duplicate;
    FirstOccurrencesFacts(duplicate);
  }

  /** The first occurrences hold every element once, and nothing else. */
  lemma {:induction false} FirstOccurrencesFacts<T>(s: seq<T>)
    ensures NoDuplicates(FirstOccurrences(s))
    ensures forall x :: x in FirstOccurrences(s) <==> x in s
  {
    if s != [] {
      var init := s[..|s| - 1];
      FirstOccurrencesFacts(init);
      assert s == init + [s[|s| - 1]];
    }
  }

  /** A list without duplicates is its own first occurrences. */
  lemma {:induction false} FirstOccurrencesOfDistinct<T>(s: seq<T>)
    requires NoDuplicates(s)
    ensures FirstOccurrences(s) == s
  {
    if s != [] {
      var init := s[..|s| - 1];
      assert NoDuplicates(init);
      FirstOccurrencesOfDistinct(init);
      assert s[|s| - 1] !in init;
      assert s == init + [s[|s| - 1]];
    }
  }

  /** Removing duplicates twice is removing them once. */
  lemma FirstOccurrencesIdempotent<T>(s: seq<T>)
    ensures FirstOccurrences(FirstOccurrences(s)) == FirstOccurrences(s)
  {
    FirstOccurrencesFacts(s);
    FirstOccurrencesOfDistinct(FirstOccurrences(s));
  }

  /** The kept elements appear in `s` in the same order. */
  lemma {:induction false} FirstOccurrencesSubsequence<T>(s: seq<T>)
    ensures IsSubsequence(FirstOccurrences(s), s)
  {
    if s != [] {
      var init := s[..|s| - 1];
      var last := s[|s| - 1];
      var fo := FirstOccurrences(init);
      FirstOccurrencesSubsequence(init);
      assert s == init + [last];
      if last in init {
        SubsequenceExtend(fo, init, last);
        assert FirstOccurrences(s) == fo;
      } else {
        SubsequenceSnoc(fo, init, last);
        assert FirstOccurrences(s) == fo + [last];
      }
    }
  }

  /** The list comprehension of init_clion.py:87. The source compares with
      `is not ''`; CPython keeps a single empty string object, so that is
      the same as `!=` here. */
  function NonEmptyNames(names: seq<string>): (r: seq<string>)
    ensures "" !in r
    ensures forall x :: x in r <==> x in names && x != ""
    ensures IsSubsequence(r, names)
  {
    Filter(names, (n: string) => n != "")
  }

  /** init_clion.py:86-87: the dependency list the generated CMakeLists is
      written from. */
  method FinalDependencies(dependencies: seq<string>) returns (r: seq<string>)
    ensures "" !in r
    ensures NoDuplicates(r)
    ensures forall x :: x in r <==> x in dependencies && x != ""
  {
    var distinct := RemoveDuplicates(dependencies);
    r := NonEmptyNames(distinct);
    FilterKeepsDistinct(distinct, (n: string) => n != "");
  }
}

=== FILE: config.dfy ===
/** `brahma config` (brahma/brahma_config.py:20-69): command-line flags
    applied to the loaded settings, which are then saved. */
module Config {
  import opened Wrappers
  import opened Ordering
  import opened Seqs
  import opened WorkspaceSettings

  datatype ConfigArgs = ConfigArgs(
    upstreamDeps: bool, noUpstreamDeps: bool,
    downstreamDeps: bool, noDownstreamDeps: bool,
    missingDeps: bool, noMissingDeps: bool,
    addFilterPackages: seq<string>, removeFilterPackages: seq<string>, noFilterPackages: bool,
    filterOnlyDownstreamPackages: bool, filterAllPackages: bool,
    addExplicitPackages: seq<string>, removeExplicitPackages: seq<string>, noExplicitPackages: bool,
    ide: Option<string>,
    rosDistro: Option<string>)

  /** A positive and a negative flag on one setting: the negative one is
      applied last and wins; with neither the setting is kept. */
  function ApplyFlag(current: bool, on: bool, off: bool): (r: bool)
    ensures off ==> !r
    ensures on && !off ==> r
    ensures !on && !off ==> r == current
  {
    var afterOn := if on then true else current;
    if off then false else afterOn
  }

  /** `list(some_set)`: the elements of the set once each, in an order
      Python does not specify. */
  method ListOfSet(s: set<string>) returns (r: seq<string>)
    ensures NoDuplicates(r)
    ensures forall x :: x in r <==> x in s
  {
    r := [];
    var rest := s;
    while rest != {}
      invariant NoDuplicates(r)
      invariant rest <= s
      invariant forall x :: x in r <==> x in s && x !in rest
      decreases rest
    {
      var x :| x in rest;
      r := r + [x];
      rest := rest - {x};
    }
  }

  /** A package list after a clear flag or an add/remove pair
      (brahma_config.py:45-51 and 58-64). */
  method UpdateList(current: seq<string>, add: seq<string>, remove: seq<string>, clear: bool) returns (r: seq<string>)
    ensures clear ==> r == []
    ensures !clear ==> NoDuplicates(r)
    ensures !clear ==> forall x :: x in r <==> (x in current || x in add) && x !in remove
  {
    if clear {
      r := [];
    } else {
      var packageSet := (set x | x in current) + (set x | x in add);
      packageSet := packageSet - (set x | x in remove);
      r := ListOfSet(packageSet);
    }
  }

  /** The settings after every flag of `a`, before saving; the lists are
      the already updated ones. */
  function ApplyArgs(s: Settings, a: ConfigArgs, filterPackages: seq<string>, explicitPackages: seq<string>): (r: Settings)
    ensures r.filterPackages == filterPackages && r.explicitPackages == explicitPackages
    ensures r.includeUpstream == ApplyFlag(s.includeUpstream, a.upstreamDeps, a.noUpstreamDeps)
    ensures r.includeDownstream == ApplyFlag(s.includeDownstream, a.downstreamDeps, a.noDownstreamDeps)
    ensures r.includeMissing == ApplyFlag(s.includeMissing, a.missingDeps, a.noMissingDeps)
    ensures r.onlyFilterDownstream == ApplyFlag(s.onlyFilterDownstream, a.filterOnlyDownstreamPackages, a.filterAllPackages)
    ensures a.ide.None? ==> r.ide == s.ide
    ensures a.ide.Some? ==> r.ide == a.ide.value
    ensures a.rosDistro.None? ==> r.rosDistro == s.rosDistro
    ensures a.rosDistro.Some? ==> r.rosDistro == a.rosDistro.value
    ensures r.repositories == s.repositories && r.completeOverlay == s.completeOverlay
  {
    s.(
      includeUpstream := ApplyFlag(s.includeUpstream, a.upstreamDeps, a.noUpstreamDeps),
      includeDownstream := ApplyFlag(s.includeDownstream, a.downstreamDeps, a.noDownstreamDeps),
      includeMissing := ApplyFlag(s.includeMissing, a.missingDeps, a.noMissingDeps),
      filterPackages := filterPackages,
      onlyFilterDownstream := ApplyFlag(s.onlyFilterDownstream, a.filterOnlyDownstreamPackages, a.filterAllPackages),
      explicitPackages := explicitPackages,
      ide := if a.ide.Some? then a.ide.value else s.ide,
      rosDistro := if a.rosDistro.Some? then a.rosDistro.value else s.rosDistro)
  }

  /** `run`: apply every flag, then save (which sorts the lists). */
  method Configure(s: Settings, a: ConfigArgs) returns (r: Settings)
    ensures a.noUpstreamDeps ==> !r.includeUpstream
    ensures a.upstreamDeps && !a.noUpstreamDeps ==> r.includeUpstream
    ensures !a.upstreamDeps && !a.noUpstreamDeps ==> r.includeUpstream == s.includeUpstream
    ensures a.noDownstreamDeps ==> !r.includeDownstream
    ensures a.downstreamDeps && !a.noDownstreamDeps ==> r.includeDownstream
    ensures !a.downstreamDeps && !a.noDownstreamDeps ==> r.includeDownstream == s.includeDownstream
    ensures a.noMissingDeps ==> !r.includeMissing
    ensures a.missingDeps && !a.noMissingDeps ==> r.includeMissing
    ensures !a.missingDeps && !a.noMissingDeps ==> r.includeMissing == s.includeMissing
    ensures a.noFilterPackages ==> r.filterPackages == []
    ensures !a.noFilterPackages ==> forall x :: x in r.filterPackages <==>
              (x in s.filterPackages || x in a.addFilterPackages) && x !in a.removeFilterPackages
    ensures a.filterAllPackages ==> !r.onlyFilterDownstream
    ensures a.filterOnlyDownstreamPackages && !a.filterAllPackages ==> r.onlyFilterDownstream
    ensures !a.filterOnlyDownstreamPackages && !a.filterAllPackages ==> r.onlyFilterDownstream == s.onlyFilterDownstream
    ensures a.noExplicitPackages ==> r.explicitPackages == []
    ensures !a.noExplicitPackages ==> forall x :: x in r.explicitPackages <==>
              (x in s.explicitPackages || x in a.addExplicitPackages) && x !in a.removeExplicitPackages
    ensures NoDuplicates(r.filterPackages) && NoDuplicates(r.explicitPackages)
    ensures SortedByKey(r.filterPackages) && SortedByKey(r.explicitPackages)
    ensures a.ide.None? ==> r.ide == s.ide
    ensures a.ide.Some? ==> r.ide == a.ide.value
    ensures a.rosDistro.None? ==> r.rosDistro == s.rosDistro
    ensures a.rosDistro.Some? ==> r.rosDistro == a.rosDistro.value
    ensures r.repositories == s.repositories && r.completeOverlay == s.completeOverlay
  {
    var filterPackages := UpdateList(s.filterPackages, a.addFilterPackages, a.removeFilterPackages, a.noFilterPackages);
    var explicitPackages := UpdateList(s.explicitPackages, a.addExplicitPackages, a.removeExplicitPackages, a.noExplicitPackages);
    var applied := ApplyArgs(s, a, filterPackages, explicitPackages);
    r := Save(applied);
  }
}

=== FILE: coverage.dfy ===
/** Argument handling of the Python coverage wrapper for rostest
    (cmake_python_coverage/__init__.py). */
module Coverage {
  import opened Wrappers
  import opened Text
  import opened Seqs

  const GtestOutput := "--gtest_output"
  const XmlSeparator := "=xml:"

  /** `arg.split('=xml:')[1]`: the text between the first separator and the
      next one (or the end); an index error when there is no separator. */
  function SecondField(arg: string): (r: Result<string>)
    ensures r.Err? <==> !Contains(arg, XmlSeparator)
    ensures r.Err? ==> r.error == IndexOutOfRange
    ensures r.Ok? ==> !Contains(r.value, XmlSeparator)
    ensures r.Ok? ==>
              var i := Find(arg, XmlSeparator) + |XmlSeparator|;
              && |XmlSeparator| <= i && i + |r.value| <= |arg|
              && arg[i..i + |r.value|] == r.value
              && (i + |r.value| == |arg| || OccursAt(arg, XmlSeparator, i + |r.value|))
  {
    var i := Find(arg, XmlSeparator);
    if i == -1 then Err(IndexOutOfRange)
    else
      var start := i + |XmlSeparator|;
      var rest := arg[start..];
      var j := Find(rest, XmlSeparator);
      if j == -1 then Ok(rest)
      else
        NoEarlierOccurrence(rest, j);
        OccursInSuffix(arg, start, j);
        Ok(rest[..j])
  }

  /** An occurrence in a suffix of `s` is an occurrence in `s`, and the
      text before it is a slice of `s`. */
  lemma OccursInSuffix(s: string, start: int, j: int)
    requires 0 <= start <= |s| && OccursAt(s[start..], XmlSeparator, j)
    ensures s[start..start + j] == s[start..][..j]
    ensures OccursAt(s, XmlSeparator, start + j)
  {
    assert s[start + j..start + j + |XmlSeparator|] == s[start..][j..j + |XmlSeparator|];
  }

  /** Nothing before the first occurrence starts a copy of `pattern`. */
  lemma NoEarlierOccurrence(s: string, j: int)
    requires 0 <= j && j == Find(s, XmlSeparator)
    ensures !Contains(s[..j], XmlSeparator)
  {
    forall k | 0 <= k <= |s[..j]| - |XmlSeparator|
      ensures !OccursAt(s[..j], XmlSeparator, k)
    {
      if OccursAt(s[..j], XmlSeparator, k) {
        assert s[..j][k..k + |XmlSeparator|] == s[k..k + |XmlSeparator|];
        assert OccursAt(s, XmlSeparator, k);
        assert false;
      }
    }
  }

  /** `get_output_file` (__init__.py:14-19): the file named by the first
      argument that starts with "--gtest_output". */
  function OutputFile(argv: seq<string>): (r: Result<string>)
    ensures r.Err? && r.error == NoOutputFile <==>
              forall i :: 0 <= i < |argv| ==> !StartsWith(argv[i], GtestOutput)
    ensures r.Ok? ==> !Contains(r.value, XmlSeparator)
  {
    if argv == [] then Err(NoOutputFile)
    else if StartsWith(argv[0], GtestOutput) then SecondField(argv[0])
    else
      var r := OutputFile(argv[1..]);
      assert forall i :: 1 <= i < |argv| ==> argv[i] == argv[1..][i - 1];
      r
  }

  /** The first "--gtest_output" argument decides the result. */
  lemma {:induction false} OutputFileFromFirst(argv: seq<string>, k: nat)
    requires k < |argv| && StartsWith(argv[k], GtestOutput)
    requires forall i :: 0 <= i < k ==> !StartsWith(argv[i], GtestOutput)
    ensures OutputFile(argv) == SecondField(argv[k])
  {
    if k > 0 {
      assert forall i :: 0 <= i < k - 1 ==> argv[1..][i] == argv[i + 1];
      OutputFileFromFirst(argv[1..], k - 1);
    }
  }

  /** Round trip: an argument written as "--gtest_output=xml:<file>" gives
      the file back. */
  lemma OutputFileRoundTrip(before: seq<string>, file: string, after: seq<string>)
    requires forall i :: 0 <= i < |before| ==> !StartsWith(before[i], GtestOutput)
    requires !Contains(file, XmlSeparator)
    ensures OutputFile(before + [GtestOutput + XmlSeparator + file] + after) == Ok(file)
  {
    var argv := before + [GtestOutput + XmlSeparator + file] + after;
    var arg := GtestOutput + XmlSeparator + file;
    assert argv[|before|] == arg;
    assert arg[..|GtestOutput|] == GtestOutput;
    OutputFileFromFirst(argv, |before|);
    SecondFieldOfOption(file);
  }

  lemma SecondFieldOfOption(file: string)
    requires !Contains(file, XmlSeparator)
    ensures SecondField(GtestOutput + XmlSeparator + file) == Ok(file)
  {
    var arg := GtestOutput + XmlSeparator + file;
    assert OccursAt(arg, XmlSeparator, |GtestOutput|) by {
      assert arg[|GtestOutput|..|GtestOutput| + |XmlSeparator|] == XmlSeparator;
    }
    forall k | 0 <= k < |GtestOutput|
      ensures !OccursAt(arg, XmlSeparator, k)
    {
      assert arg[k] == GtestOutput[k];
    }
    FindFirst(arg, XmlSeparator, |GtestOutput|);
    assert arg[|GtestOutput| + |XmlSeparator|..] == file;
  }

  /** The argument filter of `get_additional_args` (__init__.py:25). */
  predicate Forwarded(arg: string) {
    !StartsWith(arg, "__") && !StartsWith(arg, GtestOutput)
  }

  /** `get_additional_args` (__init__.py:22-28): the arguments after the
      first one that are neither ROS remappings ("__name:=...") nor the
      gtest output option, in order. */
  method AdditionalArgs(argv: seq<string>) returns (args: seq<string>)
    ensures args == Filter(Tail(argv), Forwarded)
    ensures IsSubsequence(args, Tail(argv))
    ensures forall a :: a in args <==> a in Tail(argv) && Forwarded(a)
  {
    var rest := Tail(argv);
    args := [];
    var i := 0;
    while i < |rest|
      invariant 0 <= i <= |rest|
      invariant args == Filter(rest[..i], Forwarded)
    {
      FilterSnoc(rest[..i], rest[i], Forwarded);
      assert rest[..i + 1] == rest[..i] + [rest[i]];
      if Forwarded(rest[i]) {
        args := args + [rest[i]];
      }
      i := i + 1;
    }
    assert rest[..i] == rest;
  }

  /** `argv[1:]`, which is empty for an empty list. */
  function Tail(argv: seq<string>): seq<string> {
    if argv == [] then [] else argv[1..]
  }
}

=== FILE: dependencies.dfy ===
/** The recursive dependency queries of brahma/utils.py:323-414.

    The tool delegates the graph walk to catkin_pkg/catkin_tools; here the
    walk's results are opaque functions of the source tree, and only what the
    tool itself adds is modelled: the cycle check before every query, the
    union over the queried packages keyed by name, and the subtraction of
    installed packages.
 */
module Dependencies {
  import opened Wrappers
  import opened Packages

  /** One entry of `topological_order`: whether the order is valid so far,
      and the package (or the description of the cycle). */
  datatype OrderEntry = OrderEntry(valid: bool, info: string)

  /** What the tool learns about the source directory from catkin. */
  datatype SourceTree = SourceTree(
    /** `find_packages(source)`, in iteration order */
    packages: seq<Package>,
    /** `topological_order(source)` */
    order: seq<OrderEntry>,
    /** `get_recursive_build_depends_in_workspace` of one package */
    dependsOn: string -> set<string>,
    /** `get_recursive_build_dependents_in_workspace` of one package name */
    dependentsOf: string -> set<string>)

  /** The topological order does not end in an invalid entry. */
  predicate Acyclic(t: SourceTree) {
    t.order == [] || t.order[|t.order| - 1].valid
  }

  /** `assertCyclicDependency` (utils.py:323-333). */
  function AssertAcyclic(t: SourceTree): (r: Result<()>)
    ensures r.Ok? <==> Acyclic(t)
    ensures r.Err? ==> r.error == CyclicDependency(t.order[|t.order| - 1].info)
  {
    if t.order != [] && !t.order[|t.order| - 1].valid then
      Err(CyclicDependency(t.order[|t.order| - 1].info))
    else
      Ok(())
  }

  /** Names related to some name of `seeds`, restricted to the source tree. */
  function Related(t: SourceTree, seeds: set<string>, rel: string -> set<string>): set<string> {
    (set k, n | k in seeds && n in rel(k) :: n) * Names(t.packages)
  }

  function UpstreamNames(t: SourceTree, seeds: set<string>): set<string> {
    Related(t, seeds, t.dependsOn)
  }

  function DownstreamNames(t: SourceTree, seeds: set<string>): set<string> {
    Related(t, seeds, t.dependentsOf)
  }

  /** The source packages of the given names. */
  function Lookup(t: SourceTree, names: set<string>): (r: PackageMap)
    requires names <= Names(t.packages)
    ensures r.Keys == names
    ensures SubMap(r, AllPackages(t.packages))
    ensures SourcePackages(r, t.packages)
  {
    var all := AllPackages(t.packages);
    map n | n in names :: all[n]
  }

  /** `getRecursiveUpstreamDependencies` (utils.py:374-394). */
  function Upstream(t: SourceTree, pkgs: PackageMap): (r: Result<PackageMap>)
    ensures r.Err? <==> !Acyclic(t)
    ensures r.Ok? ==> r.value.Keys == UpstreamNames(t, pkgs.Keys)
    ensures r.Ok? ==> SubMap(r.value, AllPackages(t.packages)) && SourcePackages(r.value, t.packages)
  {
    var _ :- AssertAcyclic(t);
    Ok(Lookup(t, UpstreamNames(t, pkgs.Keys)))
  }

  /** `getRecursiveDownstreamDependenciesFromNames` (utils.py:336-356). */
  function Downstream(t: SourceTree, names: set<string>): (r: Result<PackageMap>)
    ensures r.Err? <==> !Acyclic(t)
    ensures r.Ok? ==> r.value.Keys == DownstreamNames(t, names)
    ensures r.Ok? ==> SubMap(r.value, AllPackages(t.packages)) && SourcePackages(r.value, t.packages)
  {
    var _ :- AssertAcyclic(t);
    Ok(Lookup(t, DownstreamNames(t, names)))
  }

  /** `getNotInstalledUpstreamDependencies` (utils.py:397-414): the upstream
      packages whose key is not in the install index. */
  function NotInstalledUpstream(t: SourceTree, pkgs: PackageMap, installed: set<string>): (r: Result<PackageMap>)
    ensures r.Err? <==> !Acyclic(t)
    ensures r.Ok? ==> r.value.Keys == UpstreamNames(t, pkgs.Keys) - installed
    ensures r.Ok? ==> r.value.Keys !! installed
    ensures r.Ok? ==> Upstream(t, pkgs).Ok? && SubMap(r.value, Upstream(t, pkgs).value)
  {
    var upstream := Upstream(t, pkgs);
    if upstream.Err? then Err(upstream.error)
    else Ok(map k | k in upstream.value.Keys - installed :: upstream.value[k])
  }
}

=== FILE: fileutils.dfy ===
/** Two small helpers of brahma/utils.py: finding the workspace above a
    directory, and picking header files out of a git diff. */
module FileUtils {
  import opened Wrappers
  import opened Text
  import opened Seqs

  /** A normalised absolute path as its components: each one non-empty and
      free of '/'. */
  predicate ValidComponents(cs: seq<string>) {
    forall i :: 0 <= i < |cs| ==> cs[i] != "" && '/' !in cs[i]
  }

  /** The components joined as "/a/b/c"; empty for no component. */
  function Join(cs: seq<string>): (p: string)
    ensures cs != [] ==> |p| > 0 && p[0] == '/'
  {
    if cs == [] then "" else Join(cs[..|cs| - 1]) + "/" + cs[|cs| - 1]
  }

  /** The path string of the components; the root is "/". */
  function Render(cs: seq<string>): string {
    if cs == [] then "/" else Join(cs)
  }

  /** `os.path.dirname` of a normalised absolute path: everything before the
      last '/', or the root. */
  function Dirname(p: string): string {
    var i := RFind(p, "/");
    if i <= 0 then "/" else p[..i]
  }

  /** Going to the parent directory drops the last component. */
  lemma DirnameDropsLast(cs: seq<string>)
    requires ValidComponents(cs) && cs != []
    ensures Dirname(Render(cs)) == Render(cs[..|cs| - 1])
  {
    var init := cs[..|cs| - 1];
    var last := cs[|cs| - 1];
    var p := Join(cs);
    var k := |Join(init)|;
    assert p == Join(init) + "/" + last;
    assert OccursAt(p, "/", k) by {
      assert p[k..k + 1] == "/";
    }
    forall j | k < j
      ensures !OccursAt(p, "/", j)
    {
      OccursAtChar(p, '/', j);
      if j < |p| {
        assert p[j] == last[j - k - 1];
      }
    }
    assert RFind(p, "/") == k;
    if init == [] {
      assert k == 0;
    } else {
      assert k > 0;
      assert p[..k] == Join(init);
    }
  }

  /** The folder whose presence marks a workspace root. */
  function MarkerOf(path: string): string {
    path + "/.brahma"
  }

  /** The directory made of the first `j` components holds a marker. */
  predicate MarkedAt(dir: seq<string>, isDir: string -> bool, j: nat)
    requires j <= |dir|
  {
    isDir(MarkerOf(Render(dir[..j])))
  }

  /** No directory deeper than level `n` holds a marker. */
  predicate NoMarkerAbove(dir: seq<string>, isDir: string -> bool, n: nat)
    requires n <= |dir|
  {
    forall j: nat :: n < j <= |dir| ==> !MarkedAt(dir, isDir, j)
  }

  /** The directory of level `k` is the nearest one with a marker. */
  predicate NearestMarked(dir: seq<string>, isDir: string -> bool, k: nat) {
    1 <= k <= |dir| && MarkedAt(dir, isDir, k) && NoMarkerAbove(dir, isDir, k)
  }

  /** `getWorkspacePath` (utils.py:39-53): the nearest directory from `dir`
      upwards, the root excluded, that holds a ".brahma" folder. `dir` comes
      already normalised as components; `isDir` is `os.path.isdir`. */
  method WorkspacePath(dir: seq<string>, isDir: string -> bool) returns (r: Option<string>)
    requires ValidComponents(dir)
    ensures r.None? <==> NoMarkerAbove(dir, isDir, 0)
    ensures r.Some? ==> exists k: nat :: NearestMarked(dir, isDir, k) && r.value == Render(dir[..k])
  {
    var n := |dir|;
    var path := Render(dir);
    assert dir[..n] == dir;
    RootIffEmpty(dir[..n]);
    while path != "/"
      invariant 0 <= n <= |dir|
      invariant path == Render(dir[..n])
      invariant path == "/" <==> n == 0
      invariant NoMarkerAbove(dir, isDir, n)
      decreases n
    {
      if isDir(MarkerOf(path)) {
        assert NearestMarked(dir, isDir, n);
        assert !NoMarkerAbove(dir, isDir, 0);
        return Some(path);
      }
      assert !MarkedAt(dir, isDir, n);
      NoMarkerBelow(dir, isDir, n);
      StepUp(dir, n);
      path := Dirname(path);
      n := n - 1;
    }
    return None;
  }

  lemma NoMarkerBelow(dir: seq<string>, isDir: string -> bool, n: nat)
    requires 0 < n <= |dir|
    requires NoMarkerAbove(dir, isDir, n) && !MarkedAt(dir, isDir, n)
    ensures NoMarkerAbove(dir, isDir, n - 1)
  {
  }

  /** One step up from level `n` reaches level `n - 1`, which is the root
      only at level 0. */
  lemma StepUp(dir: seq<string>, n: nat)
    requires ValidComponents(dir) && 0 < n <= |dir|
    ensures Dirname(Render(dir[..n])) == Render(dir[..n - 1])
    ensures Render(dir[..n - 1]) == "/" <==> n - 1 == 0
  {
    DirnameDropsLast(dir[..n]);
    assert dir[..n][..n - 1] == dir[..n - 1];
    RootIffEmpty(dir[..n - 1]);
  }

  /** Only the empty component list renders as the root. */
  lemma RootIffEmpty(cs: seq<string>)
    requires ValidComponents(cs)
    ensures Render(cs) == "/" <==> cs == []
  {
    if cs != [] {
      var last := cs[|cs| - 1];
      var p := Join(cs);
      assert p == Join(cs[..|cs| - 1]) + "/" + last;
      assert |p| >= 2;
    }
  }

  /** The suffixes of `header_file_regex` (utils.py:222). */
  const HeaderExtensions: seq<string> := [".tpp", ".h", ".hh", ".hpp"]

  /** What `re.match('^.*(\.tpp|\.h|\.hh|\.hpp)$', p)` accepts: a line
      without newline ending in a header suffix, optionally followed by one
      final newline (where Python's `$` also matches). */
  ghost predicate HeaderPattern(p: string) {
    exists q, e :: e in HeaderExtensions && '\n' !in q && (p == q + e || p == q + e + "\n")
  }

  /** The regular expression match as the tool evaluates it. */
  function MatchesHeader(p: string): (b: bool) {
    var body := if EndsWith(p, "\n") then p[..|p| - 1] else p;
    '\n' !in body && exists e :: e in HeaderExtensions && EndsWith(body, e)
  }

  lemma MatchesHeaderIsPattern(p: string)
    ensures MatchesHeader(p) <==> HeaderPattern(p)
  {
    if MatchesHeader(p) {
      MatchIsPattern(p);
    }
    if HeaderPattern(p) {
      var q, e :| e in HeaderExtensions && '\n' !in q && (p == q + e || p == q + e + "\n");
      PatternMatches(p, q, e);
    }
  }

  lemma MatchIsPattern(p: string)
    requires MatchesHeader(p)
    ensures HeaderPattern(p)
  {
    var body := if EndsWith(p, "\n") then p[..|p| - 1] else p;
    var e :| e in HeaderExtensions && EndsWith(body, e);
    var q := body[..|body| - |e|];
    assert body == q + e;
    assert '\n' !in q by {
      assert forall i :: 0 <= i < |q| ==> q[i] == body[i];
    }
    if EndsWith(p, "\n") {
      assert p == body + "\n";
      assert p == q + e + "\n";
    }
  }

  lemma PatternMatches(p: string, q: string, e: string)
    requires e in HeaderExtensions && '\n' !in q && (p == q + e || p == q + e + "\n")
    ensures MatchesHeader(p)
  {
    assert '\n' !in e && |e| > 0;
    var body := if EndsWith(p, "\n") then p[..|p| - 1] else p;
    if p == q + e {
      assert p[|p| - 1] == e[|e| - 1];
      assert !EndsWith(p, "\n");
    } else {
      assert EndsWith(p, "\n");
      assert p[..|p| - 1] == q + e;
    }
    assert body == q + e;
    assert body[|body| - |e|..] == e;
    assert '\n' !in body;
  }

  /** A changed file of a git diff and its change type. */
  datatype DiffItem = DiffItem(path: string, changeType: string)

  /** The paths of a diff, in diff order. */
  function Paths(diff: seq<DiffItem>): seq<string> {
    seq(|diff|, i requires 0 <= i < |diff| => diff[i].path)
  }

  /** `listHeadersInDiff` (utils.py:213-226): the paths of the given change
      type that look like headers, in diff order. */
  function HeadersInDiff(diff: seq<DiffItem>, changeType: string): (r: seq<string>)
    ensures |r| <= |diff|
    ensures IsSubsequence(r, Paths(diff))
    ensures forall p :: p in r <==>
              exists i :: 0 <= i < |diff| && diff[i].changeType == changeType && diff[i].path == p && MatchesHeader(p)
  {
    if diff == [] then []
    else
      var rest := HeadersInDiff(diff[1..], changeType);
      assert forall i :: 1 <= i < |diff| ==> diff[i] == diff[1..][i - 1];
      assert Paths(diff)[1..] == Paths(diff[1..]);
      if diff[0].changeType == changeType && MatchesHeader(diff[0].path) then
        assert ([diff[0].path] + rest)[1..] == rest;
        [diff[0].path] + rest
      else rest
  }
}

=== FILE: git.dfy ===
/** The decision logic of brahma/git_helpers.py: repository names from
    URLs, the stash check, and what `cloneOrLinkRepositories` does with each
    configured repository. Git itself (clone, checkout, stash) is left to
    oracles. */
module GitHelpers {
  import opened Wrappers
  import opened Text
  import opened Repositories

  /** `getRepoNameFromURL` (git_helpers.py:140-157): the text between the
      last '/' and the last ".git" (or the end, without ".git"). */
  function RepoNameFromURL(url: string): (r: Result<string>)
    ensures r.Err? <==> !Contains(url, "/") || (Contains(url, ".git") && RFind(url, ".git") <= RFind(url, "/"))
    ensures r.Err? ==> r.error == BadlyFormattedUrl(url)
    ensures r.Ok? ==> '/' !in r.value
    ensures r.Ok? ==> OccursAt(url, "/" + r.value, RFind(url, "/"))
    ensures r.Ok? ==> RFind(url, "/") + 1 + |r.value| == if Contains(url, ".git") then RFind(url, ".git") else |url|
  {
    var slash := RFind(url, "/");
    var found := RFind(url, ".git");
    var suffix := if found < 0 then |url| else found;
    if slash < 0 || suffix <= slash then Err(BadlyFormattedUrl(url))
    else
      var name := url[slash + 1..suffix];
      NoSlashAfterLast(url, slash, suffix);
      assert url[slash..slash + |"/" + name|] == "/" + name;
      Ok(name)
  }

  /** Nothing after the last '/' is a '/'. */
  lemma NoSlashAfterLast(url: string, slash: int, end: int)
    requires slash == RFind(url, "/") && 0 <= slash < end <= |url|
    ensures '/' !in url[slash + 1..end]
  {
    forall p | slash < p < end
      ensures url[p] != '/'
    {
      OccursAtChar(url, '/', p);
    }
  }

  /** A URL of the usual shape yields its last path component, without the
      ".git" suffix. */
  lemma NameRoundTrip(host: string, name: string)
    requires '/' !in name
    ensures RepoNameFromURL(host + "/" + name + ".git") == Ok(name)
  {
    var url := host + "/" + name + ".git";
    var slash := |host|;
    var found := |url| - 4;
    assert OccursAt(url, "/", slash) by {
      assert url[slash..slash + 1] == "/";
    }
    forall j | slash < j
      ensures !OccursAt(url, "/", j)
    {
      OccursAtChar(url, '/', j);
      if j < |url| {
        if j < found {
          assert url[j] == name[j - slash - 1];
        } else {
          assert url[j] == ".git"[j - found];
        }
      }
    }
    assert OccursAt(url, ".git", found) by {
      assert url[found..found + 4] == ".git";
    }
    assert RFind(url, "/") == slash;
    assert RFind(url, ".git") == found;
    assert url[slash + 1..found] == name;
  }

  /** Without any ".git", the name runs to the end of the URL. */
  lemma NameWithoutSuffix(host: string, name: string)
    requires '/' !in name
    requires !Contains(host + "/" + name, ".git")
    ensures RepoNameFromURL(host + "/" + name) == Ok(name)
  {
    var url := host + "/" + name;
    var slash := |host|;
    assert OccursAt(url, "/", slash) by {
      assert url[slash..slash + 1] == "/";
    }
    forall j | slash < j
      ensures !OccursAt(url, "/", j)
    {
      OccursAtChar(url, '/', j);
      if j < |url| {
        assert url[j] == name[j - slash - 1];
      }
    }
    assert RFind(url, "/") == slash;
    assert RFind(url, ".git") == -1;
    assert url[slash + 1..|url|] == name;
  }

  /** The last ".git" need not be a suffix: a repository whose name merely
      contains ".git" loses the rest of its name. */
  lemma NameCutAtInnerSuffix()
    ensures RepoNameFromURL("h/x.github") == Ok("x")
  {
    var url := "h/x.github";
    assert OccursAt(url, "/", 1);
    assert OccursAt(url, ".git", 3);
    forall j | 1 < j
      ensures !OccursAt(url, "/", j)
    {
      OccursAtChar(url, '/', j);
    }
    forall j | 3 < j < |url|
      ensures url[j] != '.'
    {
    }
    forall j | 3 < j
      ensures !OccursAt(url, ".git", j)
    {
      if j + 4 <= |url| {
        assert url[j..j + 4][0] == url[j];
      }
    }
    assert RFind(url, "/") == 1;
    assert RFind(url, ".git") == 3;
    assert url[2..3] == "x";
  }

  /** The repository name with only a trailing ".git" removed: the text
      after the last '/', up to the end or to a final ".git". */
  function RepoNameFromURLSuffix(url: string): (r: Result<string>)
    ensures r.Err? <==> !Contains(url, "/")
    ensures r.Err? ==> r.error == BadlyFormattedUrl(url)
    ensures r.Ok? ==> '/' !in r.value
    ensures r.Ok? ==> OccursAt(url, "/" + r.value, RFind(url, "/"))
    ensures r.Ok? ==> RFind(url, "/") + 1 + |r.value| == if EndsWith(url, ".git") then |url| - 4 else |url|
  {
    var slash := RFind(url, "/");
    if slash < 0 then Err(BadlyFormattedUrl(url))
    else
      var suffix := if EndsWith(url, ".git") then |url| - 4 else |url|;
      SlashBeforeSuffix(url, slash);
      var name := url[slash + 1..suffix];
      NoSlashAfterLast(url, slash, suffix);
      assert url[slash..slash + |"/" + name|] == "/" + name;
      Ok(name)
  }

  /** A '/' cannot stand inside a final ".git". */
  lemma SlashBeforeSuffix(url: string, slash: int)
    requires OccursAt(url, "/", slash)
    ensures EndsWith(url, ".git") ==> slash < |url| - 4
  {
    OccursAtChar(url, '/', slash);
  }

  /** Every last path component comes back, with or without ".git". */
  lemma SuffixNameRoundTrip(host: string, name: string)
    requires '/' !in name && !EndsWith(name, ".git")
    ensures RepoNameFromURLSuffix(host + "/" + name + ".git") == Ok(name)
    ensures RepoNameFromURLSuffix(host + "/" + name) == Ok(name)
  {
    LastSlash(host, name, ".git");
    LastSlash(host, name, "");
    var url := host + "/" + name;
    assert url + "" == url;
    assert (url + ".git")[|url|..] == ".git";
    assert (url + ".git")[|host| + 1..|url|] == name;
    assert url[|host| + 1..] == name;
  }

  /** In `host/name<tail>`, with no '/' in `name` or `tail`, the last '/'
      is the one after `host`. */
  lemma LastSlash(host: string, name: string, tail: string)
    requires '/' !in name && '/' !in tail
    ensures RFind(host + "/" + name + tail, "/") == |host|
  {
    var url := host + "/" + name + tail;
    var slash := |host|;
    assert OccursAt(url, "/", slash) by {
      assert url[slash..slash + 1] == "/";
    }
    forall j | slash < j
      ensures !OccursAt(url, "/", j)
    {
      OccursAtChar(url, '/', j);
      if j < |url| {
        if j < slash + 1 + |name| {
          assert url[j] == name[j - slash - 1];
        } else {
          assert url[j] == tail[j - slash - 1 - |name|];
        }
      }
    }
  }

  /** `hasStash` (git_helpers.py:254-255): the stash output mentions the
      stash name. */
  function HasStash(stashOutput: string, stashName: string): (r: bool)
    ensures r <==> Contains(stashOutput, stashName)
  {
    Find(stashOutput, stashName) != -1
  }

  /** What happens to one configured repository. */
  datatype RepoAction =
    | KeepExisting
    | Clone(url: string, path: string)
    | Link(target: string, path: string)
    | SkipInvalid

  /** The action and, for a newly created folder, the base branch to check
      out. */
  datatype RepoStep = RepoStep(action: RepoAction, checkout: Option<string>)

  /** One iteration of `cloneOrLinkRepositories` (git_helpers.py:62-92):
      `present` is `os.path.exists` before the loop. */
  function PlanRepository(item: RepoItem, dir: string, present: string -> bool): (r: RepoStep)
    ensures present(dir + "/" + item.path) <==> r.action == KeepExisting
    ensures r.action.Clone? <==> !present(dir + "/" + item.path) && EndsWith(item.entry.url, ".git")
    ensures r.action.Link? <==> !present(dir + "/" + item.path) && !EndsWith(item.entry.url, ".git") && present(item.entry.url)
    ensures r.action.Clone? || r.action.Link? ==> r.action.path == dir + "/" + item.path
    ensures r.checkout.Some? <==> r.action.Clone? || r.action.Link?
    ensures r.checkout.Some? ==> r.checkout.value == item.entry.baseBranch
  {
    var path := dir + "/" + item.path;
    if present(path) then RepoStep(KeepExisting, None)
    else if EndsWith(item.entry.url, ".git") then RepoStep(Clone(item.entry.url, path), Some(item.entry.baseBranch))
    else if present(item.entry.url) then RepoStep(Link(item.entry.url, path), Some(item.entry.baseBranch))
    else RepoStep(SkipInvalid, None)
  }

  /** `cloneRepository` (git_helpers.py:44-59): refuses an existing target
      folder, and a failing clone ends the run. */
  function CloneRepository(url: string, path: string, present: string -> bool, cloneSucceeds: string -> bool): (r: Result<()>)
    ensures r.Ok? <==> !present(path) && cloneSucceeds(url)
    ensures present(path) ==> r == Err(CloneIntoExistingFolder(path))
    ensures !present(path) && !cloneSucceeds(url) ==> r == Err(CloneFailed(url))
  {
    if present(path) then Err(CloneIntoExistingFolder(path))
    else if !cloneSucceeds(url) then Err(CloneFailed(url))
    else Ok(())
  }

  /** The fallible part of one created folder: the clone, if any, and then
      opening the new folder and fetching its `origin` (git_helpers.py:83,
      88, 214), which `usable` says succeeds. */
  function CreateFolder(step: RepoStep, present: string -> bool, cloneSucceeds: string -> bool, usable: string -> bool): (r: Result<()>)
    ensures r.Ok? <==> (step.action.Clone? ==> cloneSucceeds(step.action.url) && !present(step.action.path))
                       && (step.action.Clone? || step.action.Link? ==> usable(step.action.path))
    ensures step.action.Clone? && !present(step.action.path) && !cloneSucceeds(step.action.url) ==> r == Err(CloneFailed(step.action.url))
    ensures step.action.Link? && !usable(step.action.path) ==> r == Err(RepositoryNotUsable(step.action.path))
    ensures step.action.Clone? && !present(step.action.path) && cloneSucceeds(step.action.url) && !usable(step.action.path) ==>
              r == Err(RepositoryNotUsable(step.action.path))
  {
    match step.action
    case Clone(url, path) =>
      var _ :- CloneRepository(url, path, present, cloneSucceeds);
      if usable(path) then Ok(()) else Err(RepositoryNotUsable(path))
    case Link(_, path) =>
      if usable(path) then Ok(()) else Err(RepositoryNotUsable(path))
    case _ => Ok(())
  }

  /** The whole loop, in table order: the steps taken, or the first created
      folder whose clone, opening or fetch fails. */
  function CloneOrLinkRepositories(repos: RepoTable, dir: string, present: string -> bool, cloneSucceeds: string -> bool, usable: string -> bool): (r: Result<seq<RepoStep>>)
    ensures r.Ok? <==> forall i :: 0 <= i < |repos| ==> Created(PlanRepository(repos[i], dir, present), cloneSucceeds, usable)
    ensures r.Ok? ==> |r.value| == |repos| && forall i :: 0 <= i < |repos| ==> r.value[i] == PlanRepository(repos[i], dir, present)
    decreases |repos|
  {
    if repos == [] then Ok([])
    else
      var step := PlanRepository(repos[0], dir, present);
      var created :- CreateFolder(step, present, cloneSucceeds, usable);
      var rest :- CloneOrLinkRepositories(repos[1..], dir, present, cloneSucceeds, usable);
      assert forall i :: 1 <= i < |repos| ==> repos[i] == repos[1..][i - 1];
      Ok([step] + rest)
  }

  /** A planned step goes through: a clone works, and a folder the loop
      creates can be opened and fetched. */
  predicate Created(step: RepoStep, cloneSucceeds: string -> bool, usable: string -> bool) {
    && (step.action.Clone? ==> cloneSucceeds(step.action.url))
    && (step.action.Clone? || step.action.Link? ==> usable(step.action.path))
  }

  /** A local path that exists but cannot be opened as a repository is
      linked, and then the loop ends instead of succeeding. */
  lemma LinkToNonRepositoryFails(path: string, url: string, dir: string, present: string -> bool, cloneSucceeds: string -> bool, usable: string -> bool)
    requires !EndsWith(url, ".git") && present(url) && !present(dir + "/" + path)
    requires !usable(dir + "/" + path)
    ensures CloneOrLinkRepositories([RepoItem(path, RepoEntry(url, "main"))], dir, present, cloneSucceeds, usable)
            == Err(RepositoryNotUsable(dir + "/" + path))
  {
    var item := RepoItem(path, RepoEntry(url, "main"));
    assert PlanRepository(item, dir, present).action == Link(url, dir + "/" + path);
  }

  /** A base branch is checked out only in folders the loop created, and a
      source space that already holds every repository is left alone. */
  lemma CheckoutOnlyWhenCreated(repos: RepoTable, dir: string, present: string -> bool, cloneSucceeds: string -> bool, usable: string -> bool)
    requires CloneOrLinkRepositories(repos, dir, present, cloneSucceeds, usable).Ok?
    ensures var steps := CloneOrLinkRepositories(repos, dir, present, cloneSucceeds, usable).value;
            forall i :: 0 <= i < |repos| ==>
              (steps[i].checkout.Some? ==> !present(dir + "/" + repos[i].path))
              && ((forall j :: 0 <= j < |repos| ==> present(dir + "/" + repos[j].path)) ==> steps[i] == RepoStep(KeepExisting, None))
  {
  }
}

=== FILE: ordering.dfy ===
/** `list.sort(key=str.lower)`: Python's stable sort of strings by their
    lower-case form, compared code point by code point. */
module Ordering {
  import opened Seqs

  /** `str.lower` on one character (ASCII letters only). */
  function Lower(c: char): char {
    if 'A' <= c <= 'Z' then (c as int + 32) as char else c
  }

  function LowerKey(s: string): (k: string)
    ensures |k| == |s|
    ensures forall i :: 0 <= i < |s| ==> k[i] == Lower(s[i])
  {
    if s == [] then [] else [Lower(s[0])] + LowerKey(s[1..])
  }

  /** Lexicographic order of strings, as Python compares them. */
  predicate LexLe(a: string, b: string) {
    a == [] || (b != [] && (a[0] < b[0] || (a[0] == b[0] && LexLe(a[1..], b[1..]))))
  }

  lemma LexLeTotal(a: string, b: string)
    ensures LexLe(a, b) || LexLe(b, a)
  {
  }

  lemma {:induction false} LexLeTransitive(a: string, b: string, c: string)
    requires LexLe(a, b) && LexLe(b, c)
    ensures LexLe(a, c)
    decreases |a|
  {
    if a != [] && a[0] == b[0] && b[0] == c[0] {
      LexLeTransitive(a[1..], b[1..], c[1..]);
    }
  }

  predicate KeyLe(x: string, y: string) {
    LexLe(LowerKey(x), LowerKey(y))
  }

  predicate SortedByKey(s: seq<string>) {
    forall i, j :: 0 <= i < j < |s| ==> KeyLe(s[i], s[j])
  }

  /** Insert `x`, which preceded every element of `t` in the original list,
      in front of the first element whose key is not smaller. */
  function Insert(x: string, t: seq<string>): (r: seq<string>)
    ensures multiset(r) == multiset{x} + multiset(t)
  {
    if t == [] || KeyLe(x, t[0]) then [x] + t
    else
      assert t == [t[0]] + t[1..];
      [t[0]] + Insert(x, t[1..])
  }

  function SortByLower(s: seq<string>): (r: seq<string>)
    ensures multiset(r) == multiset(s)
  {
    if s == [] then []
    else
      assert s == [s[0]] + s[1..];
      Insert(s[0], SortByLower(s[1..]))
  }

  /** The elements whose key is `k`, in order: stability says the sort
      keeps this subsequence for every key. */
  function WithKey(s: seq<string>, k: string): seq<string> {
    if s == [] then []
    else (if LowerKey(s[0]) == k then [s[0]] else []) + WithKey(s[1..], k)
  }

  lemma {:induction false} InsertSorted(x: string, t: seq<string>)
    requires SortedByKey(t)
    ensures SortedByKey(Insert(x, t))
    decreases |t|
  {
    if t == [] || KeyLe(x, t[0]) {
      forall j | 0 < j < |t| + 1 ensures KeyLe(x, ([x] + t)[j]) {
        if KeyLe(x, t[0]) && j > 1 {
          LexLeTransitive(LowerKey(x), LowerKey(t[0]), LowerKey(t[j - 1]));
        }
      }
    } else {
      InsertSorted(x, t[1..]);
      var r := Insert(x, t);
      var rest := Insert(x, t[1..]);
      assert r == [t[0]] + rest;
      LexLeTotal(LowerKey(x), LowerKey(t[0]));
      forall j | 0 <= j < |rest| ensures KeyLe(t[0], rest[j]) {
        assert rest[j] in multiset(rest);
        assert rest[j] == x || rest[j] in multiset(t[1..]);
        if rest[j] != x {
          var m :| 0 <= m < |t[1..]| && t[1..][m] == rest[j];
          assert t[m + 1] == rest[j];
        }
      }
    }
  }

  lemma {:induction false} InsertWithKey(x: string, t: seq<string>, k: string)
    ensures WithKey(Insert(x, t), k) == (if LowerKey(x) == k then [x] else []) + WithKey(t, k)
    decreases |t|
  {
    if t == [] || KeyLe(x, t[0]) {
      WithKeyCons(x, t, k);
    } else {
      InsertWithKey(x, t[1..], k);
      KeyLeReflexive(x, t[0]);
      InsertWithKeyStep(x, t[0], t[1..], Insert(x, t[1..]), k);
      assert t == [t[0]] + t[1..];
    }
  }

  /** The step of `InsertWithKey` where `x` moves past the head `y` of the
      list, which has a different key. */
  lemma InsertWithKeyStep(x: string, y: string, t: seq<string>, rest: seq<string>, k: string)
    requires LowerKey(x) != LowerKey(y)
    requires WithKey(rest, k) == (if LowerKey(x) == k then [x] else []) + WithKey(t, k)
    ensures WithKey([y] + rest, k) == (if LowerKey(x) == k then [x] else []) + WithKey([y] + t, k)
  {
    WithKeyCons(y, rest, k);
    WithKeyCons(y, t, k);
  }

  /** Elements with the same key are ordered both ways. */
  lemma KeyLeReflexive(x: string, y: string)
    ensures LowerKey(x) == LowerKey(y) ==> KeyLe(x, y)
  {
    LexLeReflexive(LowerKey(x));
  }

  lemma WithKeyCons(y: string, s: seq<string>, k: string)
    ensures WithKey([y] + s, k) == (if LowerKey(y) == k then [y] else []) + WithKey(s, k)
  {
    assert ([y] + s)[1..] == s;
  }

  lemma LexLeReflexive(a: string)
    ensures LexLe(a, a)
  {
  }

  /** `sort(key=str.lower)` puts the list in key order, is a permutation,
      and keeps the original order of elements with equal keys. */
  lemma {:induction false} SortByLowerCorrect(s: seq<string>)
    ensures SortedByKey(SortByLower(s))
    ensures multiset(SortByLower(s)) == multiset(s)
    ensures forall k :: WithKey(SortByLower(s), k) == WithKey(s, k)
    decreases |s|
  {
    if s != [] {
      SortByLowerCorrect(s[1..]);
      InsertSorted(s[0], SortByLower(s[1..]));
      forall k ensures WithKey(SortByLower(s), k) == WithKey(s, k) {
        InsertWithKey(s[0], SortByLower(s[1..]), k);
      }
    }
  }

  /** Sorting a list that is already in key order changes nothing, so
      saving the settings twice sorts once. */
  lemma {:induction false} SortSortedIsIdentity(s: seq<string>)
    requires SortedByKey(s)
    ensures SortByLower(s) == s
    decreases |s|
  {
    if s != [] {
      assert SortedByKey(s[1..]);
      SortSortedIsIdentity(s[1..]);
      assert s == [s[0]] + s[1..];
    }
  }

  lemma {:induction false} InsertDistinct(x: string, t: seq<string>)
    requires NoDuplicates(t) && x !in t
    ensures NoDuplicates(Insert(x, t))
    decreases |t|
  {
    if !(t == [] || KeyLe(x, t[0])) {
      assert NoDuplicates(t[1..]);
      InsertDistinct(x, t[1..]);
      var rest := Insert(x, t[1..]);
      assert t[0] !in multiset(rest) by {
        assert t[0] != x;
        assert t[0] !in t[1..];
      }
      assert Insert(x, t) == [t[0]] + rest;
    }
  }

  /** Sorting keeps a list free of duplicates. */
  lemma {:induction false} SortKeepsDistinct(s: seq<string>)
    ensures NoDuplicates(s) ==> NoDuplicates(SortByLower(s))
    decreases |s|
  {
    if s != [] && NoDuplicates(s) {
      assert NoDuplicates(s[1..]);
      SortKeepsDistinct(s[1..]);
      assert s[0] !in s[1..];
      assert s[0] !in multiset(SortByLower(s[1..]));
      InsertDistinct(s[0], SortByLower(s[1..]));
    }
  }
}

=== FILE: packages.dfy ===
/** Package maps and the pure package queries of brahma/utils.py.

    A scan of a source directory (`find_packages`) is modelled as the
    sequence of packages it yields, in iteration order. Every map the tool
    builds from it is keyed by package name.
 */
module Packages {
  import opened Wrappers
  import opened Text

  /** A catkin package: its name, the directory of its package.xml as the
      scan reports it (`dirname(filename)`, below the source directory and
      not resolved through a symlinked repository), and the real directory
      (`dirname(abspath(realpath(filename)))`). The two differ exactly for
      a package inside a repository that is linked into the source
      directory rather than cloned there. */
  datatype Package = Package(name: string, dir: string, realDir: string)

  type PackageMap = map<string, Package>

  predicate KeyedByName(m: PackageMap) {
    forall k :: k in m ==> m[k].name == k
  }

  /** Every entry of `m` is a package of the scan `sources`, under its name. */
  predicate SourcePackages(m: PackageMap, sources: seq<Package>) {
    KeyedByName(m) && forall k :: k in m ==> m[k] in sources
  }

  predicate SubMap(a: PackageMap, b: PackageMap) {
    forall k :: k in a ==> k in b && a[k] == b[k]
  }

  function Names(sources: seq<Package>): set<string> {
    set p | p in sources :: p.name
  }

  /** Index of the last package named `name`, or -1. */
  function LastIndexOf(sources: seq<Package>, name: string): (i: int)
    ensures -1 <= i < |sources|
    ensures i >= 0 ==> sources[i].name == name
    ensures forall j :: i < j < |sources| ==> sources[j].name != name
  {
    if sources == [] then -1
    else if sources[|sources| - 1].name == name then |sources| - 1
    else LastIndexOf(sources[..|sources| - 1], name)
  }

  /** Index of the first package named `name`, or -1. */
  function FirstIndexOf(sources: seq<Package>, name: string): (i: int)
    ensures -1 <= i < |sources|
    ensures i >= 0 ==> sources[i].name == name
    ensures i >= 0 ==> forall j :: 0 <= j < i ==> sources[j].name != name
    ensures i == -1 ==> forall j :: 0 <= j < |sources| ==> sources[j].name != name
  {
    if sources == [] then -1
    else if sources[0].name == name then 0
    else
      var k := FirstIndexOf(sources[1..], name);
      if k == -1 then -1 else k + 1
  }

  /** `getAllPackagesFromDirectory` (utils.py:257-270): every package of the
      scan under its name; of two packages with one name the later wins. */
  function AllPackages(sources: seq<Package>): (r: PackageMap)
    ensures r.Keys == Names(sources)
    ensures SourcePackages(r, sources)
    ensures forall k :: k in r ==> r[k] == sources[LastIndexOf(sources, k)]
  {
    if sources == [] then map[]
    else
      var p := sources[|sources| - 1];
      var init := sources[..|sources| - 1];
      assert sources == init + [p];
      AllPackages(init)[p.name := p]
  }

  /** The first-found packages of the names in `names`, skipping (with a
      warning in the tool) every name the scan does not contain. */
  function LookupNames(names: seq<string>, sources: seq<Package>): (r: PackageMap)
    ensures r.Keys == (set n | n in names) * Names(sources)
    ensures SourcePackages(r, sources)
    ensures forall k :: k in r ==> r[k] == sources[FirstIndexOf(sources, k)]
  {
    if names == [] then map[]
    else
      var n := names[|names| - 1];
      var acc := LookupNames(names[..|names| - 1], sources);
      var i := FirstIndexOf(sources, n);
      assert forall m :: m in names <==> m in names[..|names| - 1] || m == n by {
        assert names == names[..|names| - 1] + [n];
      }
      if i == -1 then
        assert n !in Names(sources);
        acc
      else
        assert sources[i] in sources;
        var r := acc[n := sources[i]];
        assert r.Keys == acc.Keys + {n};
        r
  }

  /** `getPackagesFromPackageNames` (utils.py:295-320): aborts when the
      directory holds no package at all, otherwise looks the names up. */
  function PackagesFromPackageNames(names: seq<string>, sources: seq<Package>): (r: Result<PackageMap>)
    ensures r.Err? <==> sources == []
    ensures r.Err? ==> r.error == NoPackagesInDirectory
    ensures r.Ok? ==> forall n :: n in r.value <==> n in names && n in Names(sources)
    ensures r.Ok? ==> SourcePackages(r.value, sources)
    ensures r.Ok? ==> forall k :: k in r.value ==> r.value[k] == sources[FirstIndexOf(sources, k)]
  {
    if sources == [] then Err(NoPackagesInDirectory)
    else Ok(LookupNames(names, sources))
  }

  /** A changed file belongs to a package when its path starts with the
      package's real directory followed by '/' (utils.py:289). */
  predicate InPackage(file: string, p: Package) {
    StartsWith(file, p.realDir + "/")
  }

  /** Inner loop of `getPackagesFromFileList`: one file against every
      package of the scan, in scan order. */
  function MatchFile(file: string, sources: seq<Package>, acc: PackageMap): (r: PackageMap)
    decreases |sources|
    ensures forall n :: n in r <==> n in acc || exists p :: p in sources && InPackage(file, p) && p.name == n
    ensures forall n :: n in r ==>
              (n in acc && r[n] == acc[n]) || (r[n] in sources && r[n].name == n && InPackage(file, r[n]))
  {
    if sources == [] then acc
    else
      var p := sources[0];
      var acc' := if InPackage(file, p) then acc[p.name := p] else acc;
      var r := MatchFile(file, sources[1..], acc');
      assert forall q :: q in sources <==> q == p || q in sources[1..];
      r
  }

  /** Outer loop of `getPackagesFromFileList`: the files in order. */
  function MatchFiles(files: seq<string>, sources: seq<Package>, acc: PackageMap): (r: PackageMap)
    decreases |files|
    ensures forall n :: n in r <==>
              n in acc || exists f, p :: f in files && p in sources && InPackage(f, p) && p.name == n
    ensures forall n :: n in r ==>
              (n in acc && r[n] == acc[n]) ||
              (r[n] in sources && r[n].name == n && exists f :: f in files && InPackage(f, r[n]))
  {
    if files == [] then acc
    else
      var f := files[0];
      var r := MatchFiles(files[1..], sources, MatchFile(f, sources, acc));
      assert forall g :: g in files <==> g == f || g in files[1..];
      r
  }

  /** `getPackagesFromFileList` (utils.py:273-292): the packages that
      contain at least one of the changed files. */
  function PackagesFromFileList(files: seq<string>, sources: seq<Package>): (r: PackageMap)
    ensures forall n :: n in r <==> exists f, p :: f in files && p in sources && InPackage(f, p) && p.name == n
    ensures SourcePackages(r, sources)
    ensures forall n :: n in r ==> exists f :: f in files && InPackage(f, r[n])
  {
    MatchFiles(files, sources, map[])
  }

  /** A file in a sibling directory that merely extends the package
      directory's name (`/src/foo_extra/x` against `/src/foo`) never selects
      the package. */
  lemma SiblingDirectoryNotMatched(file: string, p: Package)
    requires StartsWith(file, p.realDir)
    requires |file| > |p.realDir| && file[|p.realDir|] != '/'
    ensures !InPackage(file, p)
  {
  }

  /** `getFilteredPackages` (utils.py:417-436): the packages inside the
      filter tree, plus the filter roots themselves, never adding a package
      the input does not hold. */
  function FilteredPackages(pkgs: PackageMap, roots: PackageMap, tree: PackageMap): (r: PackageMap)
    ensures SubMap(r, pkgs)
    ensures r.Keys == pkgs.Keys * (tree.Keys + roots.Keys)
    ensures forall k :: k in roots && k in pkgs ==> k in r
  {
    var inTree := map k | k in pkgs.Keys * tree.Keys :: pkgs[k];
    inTree + map k | k in roots.Keys * pkgs.Keys :: pkgs[k]
  }

  /** `a.update(b)`: the entries of both, those of `b` winning. */
  function Merge(a: PackageMap, b: PackageMap): (r: PackageMap)
    ensures r.Keys == a.Keys + b.Keys
    ensures SubMap(b, r)
    ensures forall k :: k in a && k !in b ==> r[k] == a[k]
    ensures b == map[] ==> r == a
    ensures forall sources: seq<Package> :: SourcePackages(a, sources) && SourcePackages(b, sources) ==> SourcePackages(r, sources)
  {
    a + b
  }

  /** No two packages of the scan share a name (catkin's own scan refuses
      duplicates; the model does not rely on it unless stated). */
  predicate UniqueNames(sources: seq<Package>) {
    forall i, j :: 0 <= i < j < |sources| ==> sources[i].name != sources[j].name
  }

  /** With unique names, the first package of a name is also the last, so
      a lookup by name agrees with `AllPackages`. */
  lemma FirstIsLast(sources: seq<Package>, name: string)
    requires UniqueNames(sources)
    requires name in Names(sources)
    ensures FirstIndexOf(sources, name) == LastIndexOf(sources, name) >= 0
    ensures name in AllPackages(sources) && AllPackages(sources)[name] == sources[FirstIndexOf(sources, name)]
  {
    var p :| p in sources && p.name == name;
    var k :| 0 <= k < |sources| && sources[k] == p;
    var first, last := FirstIndexOf(sources, name), LastIndexOf(sources, name);
    assert first >= 0;
    assert last >= k;
  }

  /** A sub-map of a map drawn from the scan is drawn from the scan. */
  lemma SubMapSourcePackages(a: PackageMap, b: PackageMap, sources: seq<Package>)
    requires SubMap(a, b) && SourcePackages(b, sources)
    ensures SourcePackages(a, sources)
  {
  }
}

=== FILE: paths.dfy ===
/** `BrahmaWorkspacePaths` (brahma/BrahmaWorkspacePaths.py): the directories
    of a workspace, all derived from its root. The root is taken as already
    normalised (`abspath(realpath(...))` is left to the filesystem). */
module WorkspacePaths {
  import opened Text

  datatype Paths = Paths(workspace: string, catkin: string, source: string)

  const PathsFileName: string := "paths.yaml"

  function NewPaths(workspace: string): (p: Paths)
    ensures p.workspace == workspace
    ensures p.catkin == workspace + "/catkin_ws" && p.source == workspace + "/source"
    ensures StartsWith(p.catkin, workspace + "/") && StartsWith(p.source, workspace + "/")
    ensures p.catkin != p.source
  {
    var p := Paths(workspace, workspace + "/catkin_ws", workspace + "/source");
    assert |p.catkin| != |p.source|;
    p
  }

  function CatkinSource(p: Paths): string {
    p.catkin + "/src"
  }

  function ConfigurationDirectory(p: Paths): string {
    p.workspace + "/.brahma/"
  }

  function ConfigurationFile(p: Paths): string {
    ConfigurationDirectory(p) + PathsFileName
  }

  function Log(p: Paths): string {
    ConfigurationDirectory(p)
  }

  /** Every derived path lies inside the workspace root; the catkin source
      space, the source directory and the configuration directory are three
      different places, the paths file lies in the configuration directory,
      and the log directory is the configuration directory. */
  lemma DerivedPathsUnderWorkspace(workspace: string)
    ensures var p := NewPaths(workspace);
      && StartsWith(CatkinSource(p), p.catkin + "/")
      && StartsWith(CatkinSource(p), workspace + "/")
      && StartsWith(ConfigurationDirectory(p), workspace + "/")
      && StartsWith(ConfigurationFile(p), ConfigurationDirectory(p))
      && Log(p) == ConfigurationDirectory(p)
      && CatkinSource(p) != p.source
      && ConfigurationDirectory(p) != p.source && ConfigurationDirectory(p) != CatkinSource(p)
  {
    var p := NewPaths(workspace);
    var w := workspace + "/";
    assert CatkinSource(p) == w + "catkin_ws/src";
    assert ConfigurationDirectory(p) == w + ".brahma/";
    assert (w + "catkin_ws/src")[..|w|] == w;
    assert (w + ".brahma/")[..|w|] == w;
    assert ConfigurationFile(p)[..|ConfigurationDirectory(p)|] == ConfigurationDirectory(p);
    assert CatkinSource(p)[..|p.catkin + "/"|] == p.catkin + "/";
    assert |CatkinSource(p)| != |p.source|;
    assert |ConfigurationDirectory(p)| != |p.source|;
    assert |ConfigurationDirectory(p)| != |CatkinSource(p)|;
  }
}

=== FILE: reconcile.dfy ===
/** `updateAndCleanPackages` (brahma/utils.py:87-159): the reconciliation of
    the symlink overlay in the catkin source space with the target packages.

    The tool inspects the filesystem, cleans build output and then changes
    symlinks. Here the inspection is an `Overlay` value, the decision is a
    `Plan`, and the filesystem effect of a plan is `ApplyPlan`, phase by
    phase: clean first, then unlink, then link.
 */
module Reconcile {
  import opened Wrappers
  import opened Packages
  import opened Dependencies

  /** The pseudo package catkin_tools builds first; never counted as built. */
  const PrebuildPackage: string := "catkin_tools_prebuild"

  /** The overlay as found at the start of a run: every symlink in the
      catkin source space with the real path it resolves to
      (`abspath(realpath(...))`, utils.py:115-116), and the names
      `getBuiltPackages` reports. */
  datatype Overlay = Overlay(links: map<string, string>, built: set<string>)

  /** Names whose build output is removed, links that are removed, and
      target packages that are linked, in that order. */
  datatype Plan = Plan(clean: set<string>, unlink: set<string>, link: set<string>)

  const EmptyPlan := Plan({}, {}, {})

  /** Removed, added and kept names (utils.py:105-110). */
  datatype Classification = Classification(removed: set<string>, added: set<string>, kept: set<string>)

  function Classify(existing: set<string>, wanted: set<string>): (c: Classification)
    ensures c.removed + c.added + c.kept == existing + wanted
    ensures c.removed !! c.added && c.removed !! c.kept && c.added !! c.kept
    ensures c.removed <= existing && c.removed !! wanted
    ensures c.added <= wanted && c.added !! existing
    ensures c.kept <= existing && c.kept <= wanted
  {
    Classification(existing - wanted, wanted - existing, existing * wanted)
  }

  /** The built packages without the prebuild pseudo package (utils.py:100-102). */
  function BuiltPackages(o: Overlay): set<string> {
    o.built - {PrebuildPackage}
  }

  function ClassifyOverlay(target: PackageMap, o: Overlay): Classification {
    Classify(o.links.Keys, target.Keys)
  }

  /** Kept packages whose link resolves elsewhere than the target package's
      directory as the scan reports it (utils.py:112-118). The tool compares
      the link's real path with the unresolved `dirname(filename)`, so a
      package of a symlinked repository always counts as moved. */
  function MovedPackages(target: PackageMap, o: Overlay): (m: set<string>)
    ensures m <= ClassifyOverlay(target, o).kept
    ensures forall n :: n in m <==> n in o.links && n in target && o.links[n] != target[n].dir
  {
    set n | n in ClassifyOverlay(target, o).kept && o.links[n] != target[n].dir
  }

  /** Added packages and removed packages that were built (utils.py:129-132). */
  function ChangedPackages(target: PackageMap, o: Overlay): set<string> {
    var c := ClassifyOverlay(target, o);
    c.added + (c.removed * BuiltPackages(o))
  }

  /** The existing downstream dependents of the changed packages; the
      dependency query is only issued when something changed (utils.py:134-138). */
  function DownstreamToClean(t: SourceTree, changed: set<string>, existing: set<string>): (r: Result<set<string>>)
    ensures r.Err? <==> changed != {} && !Acyclic(t)
    ensures r.Ok? ==> r.value == DownstreamNames(t, changed) * existing
  {
    if changed == {} then
      assert DownstreamNames(t, changed) == {};
      Ok({})
    else
      var downstream :- Downstream(t, changed);
      Ok(downstream.Keys * existing)
  }

  /** `updateAndCleanPackages` as a decision. A built package is cleaned
      when it is not kept, or when it is kept but depends on a changed
      package; a link is removed for removed and moved packages and created
      for added and moved ones; nothing else is touched. */
  function UpdateAndCleanPackages(target: PackageMap, o: Overlay, t: SourceTree): (r: Result<Plan>)
    ensures r.Err? <==> ChangedPackages(target, o) != {} && !Acyclic(t)
    ensures r.Ok? ==> r.value.clean <= BuiltPackages(o) && PrebuildPackage !in r.value.clean
    ensures r.Ok? ==> forall n :: n in r.value.clean <==>
              n in BuiltPackages(o) &&
              (n !in ClassifyOverlay(target, o).kept || n in DownstreamNames(t, ChangedPackages(target, o)))
    ensures r.Ok? ==> r.value.unlink <= o.links.Keys && r.value.link <= target.Keys
    ensures r.Ok? ==> forall n :: n in o.links && n !in target ==> n in r.value.unlink
    ensures r.Ok? ==> forall n :: n in target && n !in o.links ==> n in r.value.link
    ensures r.Ok? ==> forall n :: n in o.links && n in target ==>
              (n in r.value.unlink <==> o.links[n] != target[n].dir) &&
              (n in r.value.link <==> o.links[n] != target[n].dir)
  {
    var existing := o.links.Keys;
    var built := BuiltPackages(o);
    var dangling := built - existing;
    var c := ClassifyOverlay(target, o);
    var moved := MovedPackages(target, o);
    var downstream :- DownstreamToClean(t, ChangedPackages(target, o), existing);
    var clean := (c.removed + dangling + downstream) * built;
    Ok(Plan(clean, c.removed + moved, c.added + moved))
  }

  /** The clean phase removes build output and touches no link. */
  function CleanPhase(o: Overlay, p: Plan): Overlay {
    Overlay(o.links, o.built - p.clean)
  }

  /** The unlink phase removes links and touches no build output. */
  function UnlinkPhase(o: Overlay, p: Plan): Overlay {
    Overlay(o.links - p.unlink, o.built)
  }

  /** The link phase creates one link per package, pointing at its
      directory; the new link resolves to the package's real directory. The
      source names the link `package.name`; the model names it after the
      map key, which is the same name in every target `brahma update`
      builds (`Packages.KeyedByName`, which `Update.TargetFromSources` proves). */
  function LinkPhase(o: Overlay, p: Plan, target: PackageMap): Overlay
    requires p.link <= target.Keys
  {
    Overlay(o.links + map n | n in p.link :: target[n].realDir, o.built)
  }

  function ApplyPlan(o: Overlay, p: Plan, target: PackageMap): Overlay
    requires p.link <= target.Keys
  {
    LinkPhase(UnlinkPhase(CleanPhase(o, p), p), p, target)
  }

  /** The overlay that links exactly the target packages, each link
      resolving to the package's real directory. */
  function TargetLinks(target: PackageMap): map<string, string> {
    map n | n in target :: target[n].realDir
  }

  /** A link records a real path, and a real path is its own real path: a
      target directory equal to what an existing link resolves to is
      already real. The filesystem guarantees this; the model states it. */
  predicate RealLinks(target: PackageMap, o: Overlay) {
    forall n :: n in o.links && n in target && o.links[n] == target[n].dir ==> target[n].realDir == target[n].dir
  }

  /** Every target package is scanned at its real directory: no package
      lives in a symlinked repository. */
  predicate ScannedAtRealDirs(target: PackageMap) {
    forall n :: n in target ==> target[n].realDir == target[n].dir
  }

  /** After the plan is applied the source space links exactly the target
      packages, each resolving to its real directory, and every remaining
      build output belongs to a linked package: no dangling link and no
      orphaned build. */
  lemma ApplyReachesTarget(target: PackageMap, o: Overlay, t: SourceTree, p: Plan)
    requires UpdateAndCleanPackages(target, o, t) == Ok(p)
    requires RealLinks(target, o)
    ensures ApplyPlan(o, p, target).links == TargetLinks(target)
    ensures BuiltPackages(ApplyPlan(o, p, target)) <= target.Keys
  {
    assert LinksPlanned(target, o, p);
    LinksReachTarget(target, o, p);
    NoOrphanedBuild(target, o, t, p);
  }

  /** The link part of a plan as `UpdateAndCleanPackages` promises it. */
  predicate LinksPlanned(target: PackageMap, o: Overlay, p: Plan) {
    p.unlink <= o.links.Keys && p.link <= target.Keys &&
    (forall n :: n in o.links && n !in target ==> n in p.unlink) &&
    (forall n :: n in target && n !in o.links ==> n in p.link) &&
    forall n :: n in o.links && n in target ==>
      (n in p.unlink <==> o.links[n] != target[n].dir) &&
      (n in p.link <==> o.links[n] != target[n].dir)
  }

  lemma LinksReachTarget(target: PackageMap, o: Overlay, p: Plan)
    requires LinksPlanned(target, o, p) && RealLinks(target, o)
    ensures ApplyPlan(o, p, target).links == TargetLinks(target)
  {
    var after := ApplyPlan(o, p, target).links;
    var want := TargetLinks(target);
    forall n
      ensures n in after <==> n in want
    {
      if n in o.links && n in target {
        assert n in p.unlink <==> n in p.link;
      }
    }
    forall n | n in want
      ensures after[n] == want[n]
    {
      if n !in p.link {
        assert n in o.links && o.links[n] == target[n].dir;
      }
    }
  }

  lemma NoOrphanedBuild(target: PackageMap, o: Overlay, t: SourceTree, p: Plan)
    requires UpdateAndCleanPackages(target, o, t) == Ok(p)
    ensures BuiltPackages(ApplyPlan(o, p, target)) <= target.Keys
  {
    var after := ApplyPlan(o, p, target);
    forall n | n in BuiltPackages(after)
      ensures n in target
    {
      assert n in BuiltPackages(o) && n !in p.clean;
    }
  }

  /** Cleaning precedes link changes: once the clean and unlink phases have
      run, no package whose link was removed for good still has build output. */
  lemma CleanPrecedesUnlink(target: PackageMap, o: Overlay, t: SourceTree, p: Plan)
    requires UpdateAndCleanPackages(target, o, t) == Ok(p)
    ensures CleanPhase(o, p).links == o.links
    ensures forall n :: n in p.unlink && n !in p.link ==> n !in BuiltPackages(UnlinkPhase(CleanPhase(o, p), p))
  {
    forall n | n in p.unlink && n !in p.link
      ensures n !in BuiltPackages(UnlinkPhase(CleanPhase(o, p), p))
    {
      assert n in o.links && n !in target;
      assert n !in ClassifyOverlay(target, o).kept;
    }
  }

  /** An overlay that already links the target, with nothing moved and no
      build output outside it, needs no operation at all. A package of a
      symlinked repository never meets the second condition: its link
      resolves to the real directory, not to the scanned one. */
  lemma Converged(target: PackageMap, o: Overlay, t: SourceTree)
    requires o.links.Keys == target.Keys
    requires forall n :: n in target ==> o.links[n] == target[n].dir
    requires BuiltPackages(o) <= o.links.Keys
    ensures UpdateAndCleanPackages(target, o, t) == Ok(EmptyPlan)
  {
    assert ChangedPackages(target, o) == {};
    var r := UpdateAndCleanPackages(target, o, t);
    assert r.Ok?;
    assert r.value.clean == {};
    assert r.value.unlink == {};
    assert r.value.link == {};
  }

  /** Reconciling a second time, against the overlay the first plan
      produced, plans nothing, provided every target package is scanned at
      its real directory. */
  lemma Idempotent(target: PackageMap, o: Overlay, t: SourceTree, p: Plan)
    requires UpdateAndCleanPackages(target, o, t) == Ok(p)
    requires ScannedAtRealDirs(target)
    ensures UpdateAndCleanPackages(target, ApplyPlan(o, p, target), t) == Ok(EmptyPlan)
  {
    assert RealLinks(target, o);
    ApplyReachesTarget(target, o, t, p);
    Converged(target, ApplyPlan(o, p, target), t);
  }

  /** A package of a symlinked repository is unlinked and linked again on
      every run: after one plan is applied, the next run finds it moved. */
  lemma RelinkedEveryRun(target: PackageMap, o: Overlay, t: SourceTree, p: Plan, n: string)
    requires UpdateAndCleanPackages(target, o, t) == Ok(p)
    requires RealLinks(target, o)
    requires n in target && target[n].realDir != target[n].dir
    ensures UpdateAndCleanPackages(target, ApplyPlan(o, p, target), t).Ok?
    ensures n in UpdateAndCleanPackages(target, ApplyPlan(o, p, target), t).value.unlink
    ensures n in UpdateAndCleanPackages(target, ApplyPlan(o, p, target), t).value.link
  {
    var after := ApplyPlan(o, p, target);
    ApplyReachesTarget(target, o, t, p);
    assert after.links.Keys == target.Keys;
    assert ChangedPackages(target, after) == {};
    assert after.links[n] == target[n].realDir;
  }
}

=== FILE: repositories.dfy ===
/** The repository table of the workspace settings (`git_repositories`).

    The tool keeps it in a Python dict, which remembers insertion order; the
    update loop walks it in that order. It is modelled as a sequence of
    items with distinct paths, and `AsMap` is its dictionary view.
 */
module Repositories {

  datatype RepoEntry = RepoEntry(url: string, baseBranch: string)

  datatype RepoItem = RepoItem(path: string, entry: RepoEntry)

  type RepoTable = seq<RepoItem>

  function Paths(t: RepoTable): set<string> {
    if t == [] then {} else {t[0].path} + Paths(t[1..])
  }

  /** No path occurs twice, as in any dictionary. */
  predicate UniquePaths(t: RepoTable) {
    t == [] || (t[0].path !in Paths(t[1..]) && UniquePaths(t[1..]))
  }

  /** The dictionary view of the table. */
  function AsMap(t: RepoTable): (m: map<string, RepoEntry>)
    ensures m.Keys == Paths(t)
  {
    if t == [] then map[] else AsMap(t[1..])[t[0].path := t[0].entry]
  }

  /** Overwrite the entry of `path` in place. */
  function Replace(t: RepoTable, path: string, e: RepoEntry): (r: RepoTable)
    requires UniquePaths(t)
    ensures |r| == |t| && Paths(r) == Paths(t) && UniquePaths(r)
    ensures forall i :: 0 <= i < |t| ==> r[i].path == t[i].path
    ensures forall i :: 0 <= i < |t| ==> r[i].entry == if t[i].path == path then e else t[i].entry
    ensures path !in Paths(t) ==> r == t
  {
    if t == [] then []
    else
      var rest := Replace(t[1..], path, e);
      var head := if t[0].path == path then RepoItem(path, e) else t[0];
      var r := [head] + rest;
      assert r[1..] == rest;
      assert forall i :: 1 <= i < |t| ==> r[i] == rest[i - 1] && t[i] == t[1..][i - 1];
      r
  }

  /** Replacing in place updates the dictionary view at `path` only. */
  lemma {:induction false} ReplaceAsMap(t: RepoTable, path: string, e: RepoEntry)
    requires UniquePaths(t)
    ensures path in Paths(t) ==> AsMap(Replace(t, path, e)) == AsMap(t)[path := e]
  {
    if t != [] && path in Paths(t) {
      var rest := Replace(t[1..], path, e);
      var tail := AsMap(t[1..]);
      if t[0].path == path {
        assert path !in Paths(t[1..]);
        ReplaceHead(t, path, e);
        OverwriteTwice(tail, path, t[0].entry, e);
      } else {
        ReplaceAsMap(t[1..], path, e);
        ReplaceSkip(t, path, e);
        UpdatesCommute(tail, path, e, t[0].path, t[0].entry);
      }
    }
  }

  lemma ReplaceHead(t: RepoTable, path: string, e: RepoEntry)
    requires UniquePaths(t) && t != [] && t[0].path == path
    ensures AsMap(Replace(t, path, e)) == AsMap(t[1..])[path := e]
  {
    var r := Replace(t, path, e);
    assert path !in Paths(t[1..]);
    assert r[1..] == t[1..];
    assert r == [RepoItem(path, e)] + t[1..];
  }

  lemma ReplaceSkip(t: RepoTable, path: string, e: RepoEntry)
    requires UniquePaths(t) && t != [] && t[0].path != path
    ensures AsMap(Replace(t, path, e)) == AsMap(Replace(t[1..], path, e))[t[0].path := t[0].entry]
  {
    var r := Replace(t, path, e);
    assert r == [t[0]] + Replace(t[1..], path, e);
    assert r[1..] == Replace(t[1..], path, e);
  }

  lemma OverwriteTwice<K, V>(m: map<K, V>, k: K, a: V, b: V)
    ensures m[k := a][k := b] == m[k := b]
  {
  }

  lemma UpdatesCommute<K, V>(m: map<K, V>, j: K, a: V, k: K, b: V)
    requires j != k
    ensures m[j := a][k := b] == m[k := b][j := a]
  {
  }

  /** `addRepository` (BrahmaWorkspaceSettings.py:84-94): sets the entry of
      `path`, overwriting a previous one in its place or appending a new one. */
  function AddRepository(t: RepoTable, path: string, url: string, baseBranch: string): (r: RepoTable)
    requires UniquePaths(t)
    ensures UniquePaths(r)
    ensures AsMap(r) == AsMap(t)[path := RepoEntry(url, baseBranch)]
    ensures path in Paths(t) ==> |r| == |t| && forall i :: 0 <= i < |t| ==> r[i].path == t[i].path
    ensures path !in Paths(t) ==> |r| == |t| + 1 && r[..|t|] == t
  {
    var e := RepoEntry(url, baseBranch);
    if path in Paths(t) then
      ReplaceAsMap(t, path, e);
      Replace(t, path, e)
    else
      AppendNew(t, RepoItem(path, e));
      t + [RepoItem(path, e)]
  }

  lemma {:induction false} AppendNew(t: RepoTable, item: RepoItem)
    requires UniquePaths(t)
    requires item.path !in Paths(t)
    ensures Paths(t + [item]) == Paths(t) + {item.path}
    ensures UniquePaths(t + [item])
    ensures AsMap(t + [item]) == AsMap(t)[item.path := item.entry]
    decreases |t|
  {
    if t == [] {
      assert [item][1..] == [];
    } else {
      assert (t + [item])[1..] == t[1..] + [item];
      AppendNew(t[1..], item);
    }
  }

  /** `removeRepository` (BrahmaWorkspaceSettings.py:96-103): deletes the
      entry of `path`, keeping the order of the others; absent paths are a
      no-op. */
  function RemoveRepository(t: RepoTable, path: string): (r: RepoTable)
    ensures AsMap(r) == AsMap(t) - {path}
    ensures Paths(r) == Paths(t) - {path}
    ensures path !in Paths(t) ==> r == t
    ensures UniquePaths(t) ==> UniquePaths(r)
  {
    if t == [] then []
    else
      var rest := RemoveRepository(t[1..], path);
      if t[0].path == path then
        rest
      else
        var r := [t[0]] + rest;
        assert r[1..] == rest;
        r
  }

  /** `clearRepositories` (BrahmaWorkspaceSettings.py:105-109). */
  function ClearRepositories(t: RepoTable): (r: RepoTable)
    ensures AsMap(r) == map[]
    ensures UniquePaths(r)
  {
    []
  }
}

=== FILE: seqs.dfy ===
/** Sequence notions shared by the model: duplicates, order-preserving
    filtering and subsequences. */
module Seqs {

  predicate NoDuplicates<T(==)>(s: seq<T>) {
    forall i, j :: 0 <= i < j < |s| ==> s[i] != s[j]
  }

  /** `a` can be obtained from `b` by deleting elements. */
  predicate IsSubsequence<T(==)>(a: seq<T>, b: seq<T>)
    decreases |b|
  {
    a == [] ||
    (b != [] &&
     ((a[0] == b[0] && IsSubsequence(a[1..], b[1..])) || IsSubsequence(a, b[1..])))
  }

  /** The elements of `s` that satisfy `keep`, in their original order. */
  function Filter<T(==,!new)>(s: seq<T>, keep: T -> bool): (r: seq<T>)
    ensures forall x :: x in r <==> x in s && keep(x)
    ensures IsSubsequence(r, s)
  {
    if s == [] then []
    else
      var rest := Filter(s[1..], keep);
      if keep(s[0]) then
        assert ([s[0]] + rest)[1..] == rest;
        [s[0]] + rest
      else
        rest
  }

  /** Every set of `k` is disjoint from `acc` and from every other set of `k`. */
  predicate DisjointFrom<T>(k: seq<set<T>>, acc: set<T>) {
    (forall i :: 0 <= i < |k| ==> k[i] !! acc)
    && forall i, j :: 0 <= i < j < |k| ==> k[i] !! k[j]
  }

  /** `DisjointFrom` one set at a time: the head is disjoint from `acc`, and
      the tail from `acc` and the head together. */
  lemma DisjointFromCons<T>(k: seq<set<T>>, acc: set<T>)
    requires k != []
    ensures DisjointFrom(k, acc) <==> k[0] !! acc && DisjointFrom(k[1..], acc + k[0])
  {
    var rest := k[1..];
    if k[0] !! acc && DisjointFrom(rest, acc + k[0]) {
      forall i | 0 <= i < |k|
        ensures k[i] !! acc
      {
        if i > 0 {
          assert k[i] == rest[i - 1];
        }
      }
      forall i, j | 0 <= i < j < |k|
        ensures k[i] !! k[j]
      {
        assert k[j] == rest[j - 1];
        if i > 0 {
          assert k[i] == rest[i - 1];
        }
      }
    }
  }

  /** Filtering a list extended by one element. */
  lemma {:induction false} FilterSnoc<T(!new)>(s: seq<T>, x: T, keep: T -> bool)
    ensures Filter(s + [x], keep) == Filter(s, keep) + (if keep(x) then [x] else [])
  {
    if s != [] {
      assert (s + [x])[1..] == s[1..] + [x];
      FilterSnoc(s[1..], x, keep);
    } else {
      assert ([] + [x])[1..] == [];
    }
  }

  /** Filtering cannot introduce duplicates. */
  lemma {:induction false} FilterKeepsDistinct<T(!new)>(s: seq<T>, keep: T -> bool)
    requires NoDuplicates(s)
    ensures NoDuplicates(Filter(s, keep))
  {
    if s != [] {
      assert NoDuplicates(s[1..]);
      FilterKeepsDistinct(s[1..], keep);
      assert s[0] !in s[1..];
    }
  }

  /** Appending the same element to both sides keeps a subsequence. */
  lemma {:induction false} SubsequenceSnoc<T>(a: seq<T>, b: seq<T>, x: T)
    requires IsSubsequence(a, b)
    ensures IsSubsequence(a + [x], b + [x])
    decreases |b|
  {
    if a == [] {
      SubsequenceOfSingle(b, x);
      assert a + [x] == [x];
    } else {
      assert b != [];
      assert (b + [x])[1..] == b[1..] + [x];
      if a[0] == b[0] && IsSubsequence(a[1..], b[1..]) {
        SubsequenceSnoc(a[1..], b[1..], x);
        assert (a + [x])[1..] == a[1..] + [x];
      } else {
        SubsequenceSnoc(a, b[1..], x);
      }
    }
  }

  /** A single element is a subsequence of any list ending in it. */
  lemma {:induction false} SubsequenceOfSingle<T>(b: seq<T>, x: T)
    ensures IsSubsequence([x], b + [x])
    decreases |b|
  {
    if b != [] {
      assert (b + [x])[1..] == b[1..] + [x];
      SubsequenceOfSingle(b[1..], x);
    } else {
      assert IsSubsequence([x][1..], ([] + [x])[1..]);
    }
  }

  /** Appending to the longer list keeps a subsequence. */
  lemma {:induction false} SubsequenceExtend<T>(a: seq<T>, b: seq<T>, x: T)
    requires IsSubsequence(a, b)
    ensures IsSubsequence(a, b + [x])
    decreases |b|
  {
    if a != [] {
      assert (b + [x])[1..] == b[1..] + [x];
      if a[0] == b[0] && IsSubsequence(a[1..], b[1..]) {
        SubsequenceExtend(a[1..], b[1..], x);
      } else {
        SubsequenceExtend(a, b[1..], x);
      }
    }
  }
}

=== FILE: settings.dfy ===
/** `BrahmaWorkspaceSettings` (brahma/BrahmaWorkspaceSettings.py): the
    workspace configuration, its defaults, the choice of ROS distribution
    and the ordering applied when it is saved. Reading and writing YAML is
    left out; `Save` is the in-memory effect of saving. */
module WorkspaceSettings {
  import opened Wrappers
  import opened Repositories
  import opened Ordering
  import opened Seqs
  import WorkspacePaths

  datatype Settings = Settings(
    filterPackages: seq<string>,
    onlyFilterDownstream: bool,
    explicitPackages: seq<string>,
    includeUpstream: bool,
    includeDownstream: bool,
    includeMissing: bool,
    completeOverlay: bool,
    repositories: RepoTable,
    ide: string,
    rosDistro: string)

  const DefaultIde: string := "clion"

  const SettingsFileName: string := "settings.yaml"

  /** `ROS_DISTRO` wins when it is set and non-empty; otherwise the single
      entry of /opt/ros (`installations`, empty when the directory is
      missing) is used, and none or several abort. */
  function ChooseRosDistro(env: Option<string>, installations: seq<string>): (r: Result<string>)
    ensures env.Some? && env.value != "" ==> r == Ok(env.value)
    ensures (env.None? || env.value == "") ==> (r.Ok? <==> |installations| == 1)
    ensures (env.None? || env.value == "") && r.Ok? ==> r.value == installations[0]
    ensures (env.None? || env.value == "") && installations == [] ==> r == Err(NoRosInstalled)
    ensures (env.None? || env.value == "") && |installations| > 1 ==> r == Err(MultipleRosInstalled)
  {
    if env.Some? && env.value != "" then Ok(env.value)
    else if |installations| == 0 then Err(NoRosInstalled)
    else if |installations| > 1 then Err(MultipleRosInstalled)
    else Ok(installations[0])
  }

  /** The documented defaults: downstream dependencies on, everything else
      off, no filter or explicit packages, no repositories, CLion project
      files. */
  predicate HasDefaults(s: Settings) {
    && s.filterPackages == [] && !s.onlyFilterDownstream && s.explicitPackages == []
    && !s.includeUpstream && s.includeDownstream && !s.includeMissing && !s.completeOverlay
    && s.repositories == [] && s.ide == DefaultIde
  }

  /** `__init__` (BrahmaWorkspaceSettings.py:45-78). Writing the default
      configuration file is left out. */
  function NewSettings(env: Option<string>, installations: seq<string>): (r: Result<Settings>)
    ensures r.Ok? <==> ChooseRosDistro(env, installations).Ok?
    ensures r.Err? ==> r.error == ChooseRosDistro(env, installations).error
    ensures r.Ok? ==> HasDefaults(r.value) && r.value.rosDistro == ChooseRosDistro(env, installations).value
  {
    var distro :- ChooseRosDistro(env, installations);
    Ok(Settings([], false, [], false, true, false, false, [], DefaultIde, distro))
  }

  /** `settingsFile` (BrahmaWorkspaceSettings.py:137-144). */
  function SettingsFile(workspace: string): string {
    workspace + "/.brahma/" + SettingsFileName
  }

  /** The settings file sits in the configuration directory of the
      workspace paths, next to but distinct from the paths file. */
  lemma SettingsFileInConfigurationDirectory(workspace: string)
    ensures var p := WorkspacePaths.NewPaths(workspace);
      && SettingsFile(workspace) == WorkspacePaths.ConfigurationDirectory(p) + SettingsFileName
      && SettingsFile(workspace) != WorkspacePaths.ConfigurationFile(p)
  {
    var p := WorkspacePaths.NewPaths(workspace);
    assert |SettingsFile(workspace)| != |WorkspacePaths.ConfigurationFile(p)|;
  }

  /** One list as `save` leaves it (BrahmaWorkspaceSettings.py:160-163). */
  function SortedList(s: seq<string>): (r: seq<string>)
    ensures SortedByKey(r)
    ensures multiset(r) == multiset(s)
    ensures forall k :: WithKey(r, k) == WithKey(s, k)
    ensures NoDuplicates(s) ==> NoDuplicates(r)
    ensures forall x :: x in r <==> x in s
  {
    assert forall x :: x in s <==> x in multiset(s);
    if |s| > 0 then
      SortByLowerCorrect(s);
      SortKeepsDistinct(s);
      assert forall x :: x in SortByLower(s) <==> x in multiset(SortByLower(s));
      SortByLower(s)
    else s
  }

  /** `save`: the filter and explicit package lists are sorted by their
      lower-case form, stably; nothing else changes. */
  function Save(s: Settings): (r: Settings)
    ensures SortedByKey(r.filterPackages) && SortedByKey(r.explicitPackages)
    ensures multiset(r.filterPackages) == multiset(s.filterPackages)
    ensures multiset(r.explicitPackages) == multiset(s.explicitPackages)
    ensures forall k :: WithKey(r.filterPackages, k) == WithKey(s.filterPackages, k)
    ensures forall k :: WithKey(r.explicitPackages, k) == WithKey(s.explicitPackages, k)
    ensures r.filterPackages == SortedList(s.filterPackages)
    ensures r.explicitPackages == SortedList(s.explicitPackages)
    ensures r == s.(filterPackages := r.filterPackages, explicitPackages := r.explicitPackages)
  {
    s.(filterPackages := SortedList(s.filterPackages), explicitPackages := SortedList(s.explicitPackages))
  }

  /** Saving twice is saving once. */
  lemma SaveIdempotent(s: Settings)
    ensures Save(Save(s)) == Save(s)
  {
    SortedListIdempotent(s.filterPackages);
    SortedListIdempotent(s.explicitPackages);
  }

  lemma SortedListIdempotent(s: seq<string>)
    ensures SortedList(SortedList(s)) == SortedList(s)
  {
    var r := SortedList(s);
    if |r| > 0 {
      SortSortedIsIdentity(r);
    }
  }
}

=== FILE: text.dfy ===
/** String queries with Python's semantics: `startswith`, `endswith`,
    `find` and `rfind` (which return -1 when the substring is absent). */
module Text {

  predicate StartsWith(s: string, prefix: string) {
    |prefix| <= |s| && s[..|prefix|] == prefix
  }

  predicate EndsWith(s: string, suffix: string) {
    |suffix| <= |s| && s[|s| - |suffix|..] == suffix
  }

  /** `sub` occurs in `s` starting at index `i`. */
  predicate OccursAt(s: string, sub: string, i: int) {
    0 <= i && i + |sub| <= |s| && s[i..i + |sub|] == sub
  }

  predicate Contains(s: string, sub: string) {
    exists i :: 0 <= i <= |s| - |sub| && OccursAt(s, sub, i)
  }

  function FindFrom(s: string, sub: string, i: nat): (r: int)
    decreases |s| - i
    ensures r == -1 || (i <= r && OccursAt(s, sub, r))
    ensures r == -1 ==> forall j :: i <= j ==> !OccursAt(s, sub, j)
    ensures r != -1 ==> forall j :: i <= j < r ==> !OccursAt(s, sub, j)
  {
    if i + |sub| > |s| then -1
    else if s[i..i + |sub|] == sub then i
    else FindFrom(s, sub, i + 1)
  }

  /** `s.find(sub)`: the lowest index at which `sub` occurs, or -1. */
  function Find(s: string, sub: string): (r: int)
    ensures r == -1 <==> !Contains(s, sub)
    ensures r != -1 ==> OccursAt(s, sub, r)
    ensures r != -1 ==> forall j :: 0 <= j < r ==> !OccursAt(s, sub, j)
  {
    FindFrom(s, sub, 0)
  }

  function RFindFrom(s: string, sub: string, i: int): (r: int)
    decreases i + 1
    ensures r == -1 || (r <= i && OccursAt(s, sub, r))
    ensures r == -1 ==> forall j :: j <= i ==> !OccursAt(s, sub, j)
    ensures r != -1 ==> forall j :: r < j <= i ==> !OccursAt(s, sub, j)
  {
    if i < 0 then -1
    else if OccursAt(s, sub, i) then i
    else RFindFrom(s, sub, i - 1)
  }

  /** `s.rfind(sub)`: the highest index at which `sub` occurs, or -1. */
  function RFind(s: string, sub: string): (r: int)
    ensures r == -1 <==> !Contains(s, sub)
    ensures r != -1 ==> OccursAt(s, sub, r)
    ensures r != -1 ==> forall j :: r < j ==> !OccursAt(s, sub, j)
  {
    RFindFrom(s, sub, |s| - |sub|)
  }

  /** A one-character pattern occurs exactly where that character stands. */
  lemma OccursAtChar(s: string, c: char, i: int)
    ensures OccursAt(s, [c], i) <==> 0 <= i < |s| && s[i] == c
  {
    if 0 <= i < |s| {
      assert s[i..i + 1] == [s[i]];
    }
  }

  /** An occurrence with none before it is the one `find` reports. */
  lemma FindFirst(s: string, sub: string, k: int)
    requires OccursAt(s, sub, k)
    requires forall j :: 0 <= j < k ==> !OccursAt(s, sub, j)
    ensures Find(s, sub) == k
  {
    assert Contains(s, sub);
  }
}

=== FILE: update.dfy ===
/** The package-set composition of `brahma update` (brahma_update.py:48-215).

    Git and the filesystem are oracles of an `Environment`: which repository
    folders exist, the changed files of a repository against its base branch,
    and the packages installed below a path. The composition runs in the
    order of the tool: filter resolution, then either every source package
    (complete overlay) or the diff packages with their upstream and
    downstream dependencies, then the global filter, the explicit packages,
    the missing upstream packages, and finally the complete-overlay override.
 */
module Update {
  import opened Wrappers
  import opened Packages
  import opened Dependencies
  import opened Repositories
  import opened WorkspaceSettings
  import opened Reconcile
  import opened Ordering
  import opened Seqs

  datatype Environment = Environment(
    /** the source space and catkin's answers about it */
    tree: SourceTree,
    /** `os.path.exists` of a repository folder, by its path in the source space */
    repoExists: string -> bool,
    /** whether the steps between opening an existing repository folder and
        reading its diff go through (brahma_update.py:75-122): `Repo(dir)`,
        the git commands of the pull branch, the fetch and checkouts of a
        missing base branch, `active_branch` on a detached head, and
        `repo.commit` of the base branch; a failure of any of them ends the
        run */
    diffReadable: (string, string) -> bool,
    /** `getDiffToBaseBranch`: the changed files of a repository against a base branch */
    diffOf: (string, string) -> seq<string>,
    /** the names `find_packages` reports below an installation path */
    installedOf: string -> set<string>)

  /** The filter packages and their upstream tree (brahma_update.py:52-56). */
  datatype Filter = Filter(roots: PackageMap, tree: PackageMap)

  function ResolveFilter(s: Settings, t: SourceTree): (r: Result<Option<Filter>>)
    ensures s.filterPackages == [] ==> r == Ok(None)
    ensures s.filterPackages != [] ==> (r.Err? <==> t.packages == [] || !Acyclic(t))
    ensures r.Ok? && s.filterPackages != [] ==> r.value.Some?
    ensures r.Ok? && r.value.Some? ==>
              (forall n :: n in r.value.value.roots <==> n in s.filterPackages && n in Names(t.packages))
              && r.value.value.tree.Keys == UpstreamNames(t, r.value.value.roots.Keys)
  {
    if s.filterPackages == [] then Ok(None)
    else
      var roots :- PackagesFromPackageNames(s.filterPackages, t.packages);
      var tree :- Upstream(t, roots);
      Ok(Some(Filter(roots, tree)))
  }

  /** The packages a repository's diff touches, whether or not its folder
      exists; nothing when it has no base branch. */
  function Contribution(item: RepoItem, env: Environment): (r: PackageMap)
    ensures item.entry.baseBranch == "" ==> r == map[]
    ensures SourcePackages(r, env.tree.packages)
  {
    if item.entry.baseBranch == "" then map[]
    else PackagesFromFileList(env.diffOf(item.path, item.entry.baseBranch), env.tree.packages)
  }

  /** A repository the diff loop can read: it has no base branch, or its
      folder exists and its diff against the base branch can be read. */
  predicate Readable(item: RepoItem, env: Environment) {
    item.entry.baseBranch == "" || (env.repoExists(item.path) && env.diffReadable(item.path, item.entry.baseBranch))
  }

  /** Every repository of the table is readable. */
  predicate DiffsReadable(repos: RepoTable, env: Environment) {
    forall i :: 0 <= i < |repos| ==> Readable(repos[i], env)
  }

  /** The package names of every repository, in table order. */
  function ContributedNames(repos: RepoTable, env: Environment): (k: seq<set<string>>)
    ensures |k| == |repos|
    ensures forall i :: 0 <= i < |repos| ==> k[i] == Contribution(repos[i], env).Keys
    decreases |repos|
  {
    if repos == [] then []
    else [Contribution(repos[0], env).Keys] + ContributedNames(repos[1..], env)
  }

  /** No two repositories, and no repository and `acc`, share a package name. */
  predicate ContributionsDisjoint(repos: RepoTable, env: Environment, acc: PackageMap) {
    DisjointFrom(ContributedNames(repos, env), acc.Keys)
  }

  /** The diff loop (brahma_update.py:66-133), in repository order: a missing
      folder, a diff that cannot be read, or a package already resolved from
      an earlier repository ends the run; otherwise the packages of every
      repository are collected. */
  function CollectDiff(repos: RepoTable, env: Environment, acc: PackageMap): (r: Result<PackageMap>)
    ensures r.Ok? ==> SubMap(acc, r.value)
    decreases |repos|
  {
    if repos == [] then Ok(acc)
    else
      var item := repos[0];
      if item.entry.baseBranch != "" && !env.repoExists(item.path) then Err(NoRepositoryFolder(item.path))
      else if item.entry.baseBranch != "" && !env.diffReadable(item.path, item.entry.baseBranch) then Err(DiffUnreadable(item.path))
      else
        var pkgs := Contribution(item, env);
        if !(acc.Keys !! pkgs.Keys) then Err(DuplicateDiffPackages(acc.Keys * pkgs.Keys))
        else CollectDiff(repos[1..], env, Merge(acc, pkgs))
  }

  lemma DiffsReadableCons(repos: RepoTable, env: Environment)
    requires repos != []
    ensures DiffsReadable(repos, env) <==> Readable(repos[0], env) && DiffsReadable(repos[1..], env)
  {
    if Readable(repos[0], env) && DiffsReadable(repos[1..], env) {
      forall i | 0 <= i < |repos|
        ensures Readable(repos[i], env)
      {
        if i > 0 {
          assert repos[i] == repos[1..][i - 1];
        }
      }
    }
  }

  lemma ContributionsDisjointCons(repos: RepoTable, env: Environment, acc: PackageMap)
    requires repos != []
    ensures ContributionsDisjoint(repos, env, acc) <==>
              Contribution(repos[0], env).Keys !! acc.Keys
              && ContributionsDisjoint(repos[1..], env, Merge(acc, Contribution(repos[0], env)))
  {
    var k := ContributedNames(repos, env);
    assert k[1..] == ContributedNames(repos[1..], env);
    DisjointFromCons(k, acc.Keys);
  }

  /** The diff loop ends the run exactly when a repository folder is missing,
      a diff cannot be read, or two repositories (or a repository and `acc`)
      share a package. */
  lemma {:induction false} CollectDiffSucceeds(repos: RepoTable, env: Environment, acc: PackageMap)
    ensures CollectDiff(repos, env, acc).Ok? <==> DiffsReadable(repos, env) && ContributionsDisjoint(repos, env, acc)
    decreases |repos|
  {
    if repos != [] {
      DiffsReadableCons(repos, env);
      ContributionsDisjointCons(repos, env, acc);
      CollectDiffSucceeds(repos[1..], env, Merge(acc, Contribution(repos[0], env)));
    }
  }

  /** A repository whose folder exists but whose diff cannot be read stops
      the loop there, before any later repository is looked at. */
  lemma UnreadableDiffStops(repos: RepoTable, env: Environment, acc: PackageMap)
    requires repos != [] && repos[0].entry.baseBranch != ""
    requires env.repoExists(repos[0].path) && !env.diffReadable(repos[0].path, repos[0].entry.baseBranch)
    ensures CollectDiff(repos, env, acc) == Err(DiffUnreadable(repos[0].path))
  {
  }

  /** On success the collected map holds `acc` and every repository's
      packages, and nothing else. */
  lemma {:induction false} CollectDiffContents(repos: RepoTable, env: Environment, acc: PackageMap)
    requires CollectDiff(repos, env, acc).Ok?
    ensures forall i :: 0 <= i < |repos| ==> SubMap(Contribution(repos[i], env), CollectDiff(repos, env, acc).value)
    ensures forall n :: n in CollectDiff(repos, env, acc).value <==>
              n in acc || exists i :: 0 <= i < |repos| && n in Contribution(repos[i], env)
    decreases |repos|
  {
    if repos != [] {
      var pkgs := Contribution(repos[0], env);
      var rest := repos[1..];
      var r := CollectDiff(repos, env, acc).value;
      assert r == CollectDiff(rest, env, Merge(acc, pkgs)).value;
      CollectDiffContents(rest, env, Merge(acc, pkgs));
      ContentsCons(repos, env, acc, r);
    }
  }

  /** One step of `CollectDiffContents`: what holds of the tail carries over
      to the whole table. */
  lemma ContentsCons(repos: RepoTable, env: Environment, acc: PackageMap, r: PackageMap)
    requires repos != []
    requires SubMap(Merge(acc, Contribution(repos[0], env)), r)
    requires forall i :: 0 <= i < |repos[1..]| ==> SubMap(Contribution(repos[1..][i], env), r)
    requires forall n :: n in r <==>
               n in Merge(acc, Contribution(repos[0], env)) || exists i :: 0 <= i < |repos[1..]| && n in Contribution(repos[1..][i], env)
    ensures forall i :: 0 <= i < |repos| ==> SubMap(Contribution(repos[i], env), r)
    ensures forall n :: n in r <==> n in acc || exists i :: 0 <= i < |repos| && n in Contribution(repos[i], env)
  {
    SubMapsCons(repos, env, acc, r);
    forall n
      ensures n in r <==> n in acc || exists i :: 0 <= i < |repos| && n in Contribution(repos[i], env)
    {
      KeyCons(repos, env, acc, r, n);
    }
  }

  lemma SubMapsCons(repos: RepoTable, env: Environment, acc: PackageMap, r: PackageMap)
    requires repos != []
    requires SubMap(Merge(acc, Contribution(repos[0], env)), r)
    requires forall i :: 0 <= i < |repos[1..]| ==> SubMap(Contribution(repos[1..][i], env), r)
    ensures forall i :: 0 <= i < |repos| ==> SubMap(Contribution(repos[i], env), r)
  {
    var rest := repos[1..];
    forall i | 0 <= i < |repos|
      ensures SubMap(Contribution(repos[i], env), r)
    {
      if i > 0 {
        assert repos[i] == rest[i - 1];
      }
    }
  }

  lemma KeyCons(repos: RepoTable, env: Environment, acc: PackageMap, r: PackageMap, n: string)
    requires repos != []
    requires n in r <==>
               n in Merge(acc, Contribution(repos[0], env)) || exists i :: 0 <= i < |repos[1..]| && n in Contribution(repos[1..][i], env)
    ensures n in r <==> n in acc || exists i :: 0 <= i < |repos| && n in Contribution(repos[i], env)
  {
    var pkgs := Contribution(repos[0], env);
    var rest := repos[1..];
    if n in r && n !in acc && n !in pkgs {
      var i :| 0 <= i < |rest| && n in Contribution(rest[i], env);
      assert rest[i] == repos[i + 1];
    }
    if exists i :: 0 <= i < |repos| && n in Contribution(repos[i], env) {
      var i :| 0 <= i < |repos| && n in Contribution(repos[i], env);
      if i > 0 {
        assert repos[i] == rest[i - 1];
      }
    }
  }

  /** The upstream names the update adds: only with the flag set and a
      non-empty diff (brahma_update.py:136-141). */
  function UpstreamPart(diff: PackageMap, s: Settings, t: SourceTree): set<string> {
    if s.includeUpstream && diff != map[] then UpstreamNames(t, diff.Keys) else {}
  }

  /** The downstream names the update adds (brahma_update.py:144-156): only
      with the flag set and a non-empty diff, and restricted to the filter
      tree and roots when the filter applies to downstream packages only. */
  function DownstreamPart(diff: PackageMap, s: Settings, filter: Option<Filter>, t: SourceTree): set<string> {
    if s.includeDownstream && diff != map[] then
      var down := DownstreamNames(t, diff.Keys);
      if filter.Some? && s.onlyFilterDownstream && down != {} then
        down * (filter.value.tree.Keys + filter.value.roots.Keys)
      else
        down
    else
      {}
  }

  /** The upstream packages step (brahma_update.py:136-141). */
  function UpstreamStep(diff: PackageMap, s: Settings, t: SourceTree): (r: Result<PackageMap>)
    ensures r.Err? <==> s.includeUpstream && diff != map[] && !Acyclic(t)
    ensures r.Ok? ==> r.value.Keys == UpstreamPart(diff, s, t)
    ensures r.Ok? ==> SubMap(r.value, AllPackages(t.packages)) && SourcePackages(r.value, t.packages)
  {
    if s.includeUpstream && diff != map[] then Upstream(t, diff) else Ok(map[])
  }

  /** The downstream packages step (brahma_update.py:144-156), with the
      downstream-only filter. */
  function DownstreamStep(diff: PackageMap, s: Settings, filter: Option<Filter>, t: SourceTree): (r: Result<PackageMap>)
    requires filter.Some? <==> s.filterPackages != []
    ensures r.Err? <==> s.includeDownstream && diff != map[] && !Acyclic(t)
    ensures r.Ok? ==> r.value.Keys == DownstreamPart(diff, s, filter, t)
    ensures r.Ok? ==> SubMap(r.value, AllPackages(t.packages)) && SourcePackages(r.value, t.packages)
  {
    if s.includeDownstream && diff != map[] then
      var down :- Downstream(t, diff.Keys);
      assert down == map[] <==> down.Keys == {};
      if s.filterPackages != [] && s.onlyFilterDownstream && down != map[] then
        var scoped := FilteredPackages(down, filter.value.roots, filter.value.tree);
        SubMapSourcePackages(scoped, down, t.packages);
        Ok(scoped)
      else
        Ok(down)
    else
      Ok(map[])
  }

  /** `{**diff_packages, **upstream_packages, **downstream_packages}`
      (brahma_update.py:135-159). */
  function WithDependencies(diff: PackageMap, s: Settings, filter: Option<Filter>, t: SourceTree): (r: Result<PackageMap>)
    requires filter.Some? <==> s.filterPackages != []
    ensures r.Err? <==> diff != map[] && (s.includeUpstream || s.includeDownstream) && !Acyclic(t)
    ensures r.Ok? ==> r.value.Keys == diff.Keys + UpstreamPart(diff, s, t) + DownstreamPart(diff, s, filter, t)
    ensures r.Ok? ==> forall n :: n in r.value && n !in diff ==>
              n in AllPackages(t.packages) && r.value[n] == AllPackages(t.packages)[n]
    ensures r.Ok? && SourcePackages(diff, t.packages) ==> SourcePackages(r.value, t.packages)
  {
    var up :- UpstreamStep(diff, s, t);
    var down :- DownstreamStep(diff, s, filter, t);
    Ok(Merge(Merge(diff, up), down))
  }

  /** Whether the filter is applied to the whole package set
      (brahma_update.py:162). */
  predicate GlobalFilterApplies(pkgs: PackageMap, s: Settings) {
    s.filterPackages != [] && !s.onlyFilterDownstream && pkgs != map[]
  }

  /** The global filter step (brahma_update.py:161-166). */
  function GlobalFilter(pkgs: PackageMap, s: Settings, filter: Option<Filter>): (r: PackageMap)
    requires filter.Some? <==> s.filterPackages != []
    ensures SubMap(r, pkgs)
    ensures GlobalFilterApplies(pkgs, s) ==> r.Keys == pkgs.Keys * (filter.value.tree.Keys + filter.value.roots.Keys)
    ensures !GlobalFilterApplies(pkgs, s) ==> r == pkgs
  {
    if GlobalFilterApplies(pkgs, s) then FilteredPackages(pkgs, filter.value.roots, filter.value.tree) else pkgs
  }

  /** The explicit packages step (brahma_update.py:168-175): every listed
      name found in the source tree is added, after filtering. */
  function AddExplicit(pkgs: PackageMap, s: Settings, t: SourceTree): (r: Result<PackageMap>)
    ensures r.Err? <==> s.explicitPackages != [] && t.packages == []
    ensures r.Ok? ==> forall n :: n in r.value <==> n in pkgs || (n in s.explicitPackages && n in Names(t.packages))
    ensures r.Ok? ==> forall n :: n in pkgs && n !in s.explicitPackages ==> r.value[n] == pkgs[n]
    ensures r.Ok? ==> forall n :: n in s.explicitPackages && n in Names(t.packages) ==>
              n in r.value && r.value[n] == t.packages[FirstIndexOf(t.packages, n)]
    ensures r.Ok? && SourcePackages(pkgs, t.packages) ==> SourcePackages(r.value, t.packages)
  {
    if s.explicitPackages == [] then Ok(pkgs)
    else
      var found := PackagesFromPackageNames(s.explicitPackages, t.packages);
      if found.Err? then Err(found.error)
      else
        var explicit := found.value;
        assert forall n :: n in explicit ==> n in s.explicitPackages;
        Ok(Merge(pkgs, explicit))
  }

  /** `"/opt/ros/" + ros_distro + "/share"` (brahma_update.py:180). */
  function InstallPath(distro: string): string {
    "/opt/ros/" + distro + "/share"
  }

  /** The missing upstream step (brahma_update.py:177-189): the query runs
      whenever the set is non-empty, and its result is added only with
      `include_missing_dependencies`. */
  function AddMissing(pkgs: PackageMap, s: Settings, t: SourceTree, installed: set<string>): (r: Result<PackageMap>)
    ensures r.Err? <==> pkgs != map[] && !Acyclic(t)
    ensures r.Ok? && !s.includeMissing ==> r.value == pkgs
    ensures r.Ok? && s.includeMissing ==> r.value.Keys == pkgs.Keys + (UpstreamNames(t, pkgs.Keys) - installed)
    ensures r.Ok? ==> forall n :: n in r.value && (n !in pkgs || r.value[n] != pkgs[n]) ==>
              n in UpstreamNames(t, pkgs.Keys) && n in AllPackages(t.packages) && r.value[n] == AllPackages(t.packages)[n]
    ensures r.Ok? && SourcePackages(pkgs, t.packages) ==> SourcePackages(r.value, t.packages)
  {
    if pkgs == map[] then Ok(pkgs)
    else
      var found := NotInstalledUpstream(t, pkgs, installed);
      if found.Err? then Err(found.error)
      else
        var missing := found.value;
        assert SubMap(missing, AllPackages(t.packages)) by {
          assert SubMap(missing, Upstream(t, pkgs).value);
        }
        assert SourcePackages(missing, t.packages) by {
          SubMapSourcePackages(missing, AllPackages(t.packages), t.packages);
        }
        if s.includeMissing then
          var r := Merge(pkgs, missing);
          assert forall n :: n in r && (n !in pkgs || r[n] != pkgs[n]) ==> n in missing;
          Ok(r)
        else
          Ok(pkgs)
  }

  /** The set before the global filter: every source package for a complete
      overlay, else the diff packages with their dependencies. */
  function BasePackages(s: Settings, env: Environment, filter: Option<Filter>): (r: Result<PackageMap>)
    requires filter.Some? <==> s.filterPackages != []
  {
    if s.completeOverlay then Ok(AllPackages(env.tree.packages))
    else
      var diff :- CollectDiff(s.repositories, env, map[]);
      WithDependencies(diff, s, filter, env.tree)
  }

  /** The steps after the base set (brahma_update.py:161-206): the global
      filter, the explicit and the missing packages, and the
      complete-overlay override. The override reassigns the very dictionary
      the explicit and missing steps updated in place, unless the global
      filter had replaced it by a new one. */
  function Complete(s: Settings, env: Environment, filter: Option<Filter>, base: PackageMap): (r: Result<PackageMap>)
    requires filter.Some? <==> s.filterPackages != []
  {
    var filtered := GlobalFilter(base, s, filter);
    var withExplicit :- AddExplicit(filtered, s, env.tree);
    var withMissing :- AddMissing(withExplicit, s, env.tree, env.installedOf(InstallPath(s.rosDistro)));
    if s.completeOverlay && GlobalFilterApplies(base, s) then Ok(AllPackages(env.tree.packages))
    else Ok(withMissing)
  }

  /** The package map handed to `updateAndCleanPackages`
      (brahma_update.py:48-210). */
  function ComposeTarget(s: Settings, env: Environment): (r: Result<PackageMap>)
  {
    var filter :- ResolveFilter(s, env.tree);
    var base :- BasePackages(s, env, filter);
    Complete(s, env, filter, base)
  }

  /** In a complete overlay every source package is linked: the target's
      names are exactly the scan's, whatever the filter, explicit and
      missing settings (brahma_update.py:59-63,204-206); with unique package
      names it is exactly `AllPackages`. */
  lemma CompleteOverlayTarget(s: Settings, env: Environment, m: PackageMap)
    requires s.completeOverlay
    requires ComposeTarget(s, env) == Ok(m)
    ensures m.Keys == Names(env.tree.packages)
    ensures UniqueNames(env.tree.packages) ==> m == AllPackages(env.tree.packages)
  {
    var filter := ResolveFilter(s, env.tree).value;
    assert BasePackages(s, env, filter) == Ok(AllPackages(env.tree.packages));
    CompleteKeys(s, env, filter, m);
    if UniqueNames(env.tree.packages) {
      CompleteValues(s, env, filter, m);
    }
  }

  lemma CompleteKeys(s: Settings, env: Environment, filter: Option<Filter>, m: PackageMap)
    requires s.completeOverlay && (filter.Some? <==> s.filterPackages != [])
    requires Complete(s, env, filter, AllPackages(env.tree.packages)) == Ok(m)
    ensures m.Keys == Names(env.tree.packages)
  {
    var t := env.tree;
    var all := AllPackages(t.packages);
    if GlobalFilterApplies(all, s) {
      CompleteFiltered(s, env, filter, m);
    } else {
      CompleteUnfiltered(s, env, filter, m);
      ExplicitKeepsAll(s, t);
      var e := AddExplicit(all, s, t).value;
      assert UpstreamNames(t, e.Keys) <= Names(t.packages);
    }
  }

  /** Adding the explicit packages to every source package adds no name. */
  lemma ExplicitKeepsAll(s: Settings, t: SourceTree)
    requires AddExplicit(AllPackages(t.packages), s, t).Ok?
    ensures AddExplicit(AllPackages(t.packages), s, t).value.Keys == Names(t.packages)
  {
  }

  lemma CompleteValues(s: Settings, env: Environment, filter: Option<Filter>, m: PackageMap)
    requires s.completeOverlay && (filter.Some? <==> s.filterPackages != [])
    requires UniqueNames(env.tree.packages)
    requires Complete(s, env, filter, AllPackages(env.tree.packages)) == Ok(m)
    ensures m == AllPackages(env.tree.packages)
  {
    var t := env.tree;
    var all := AllPackages(t.packages);
    var inst := env.installedOf(InstallPath(s.rosDistro));
    if GlobalFilterApplies(all, s) {
      CompleteFiltered(s, env, filter, m);
    } else {
      CompleteKeys(s, env, filter, m);
      CompleteUnfiltered(s, env, filter, m);
      var e := AddExplicit(all, s, t).value;
      ExplicitAgreesWithAll(s, t);
      MissingAgreesWithAll(e, s, t, inst);
      assert forall n :: n in m ==> m[n] == all[n];
      MapsEqual(m, all);
    }
  }

  /** Two package maps with the same names and entries are equal. */
  lemma MapsEqual(a: PackageMap, b: PackageMap)
    requires a.Keys == b.Keys
    requires forall n :: n in a ==> a[n] == b[n]
    ensures a == b
  {
  }

  /** With the global filter, a complete overlay keeps the untouched map of
      every source package. */
  lemma CompleteFiltered(s: Settings, env: Environment, filter: Option<Filter>, m: PackageMap)
    requires s.completeOverlay && (filter.Some? <==> s.filterPackages != [])
    requires GlobalFilterApplies(AllPackages(env.tree.packages), s)
    requires Complete(s, env, filter, AllPackages(env.tree.packages)) == Ok(m)
    ensures m == AllPackages(env.tree.packages)
  {
  }

  /** Without the global filter, a complete overlay is every source package
      updated in place by the explicit and the missing steps. */
  lemma CompleteUnfiltered(s: Settings, env: Environment, filter: Option<Filter>, m: PackageMap)
    requires s.completeOverlay && (filter.Some? <==> s.filterPackages != [])
    requires !GlobalFilterApplies(AllPackages(env.tree.packages), s)
    requires Complete(s, env, filter, AllPackages(env.tree.packages)) == Ok(m)
    ensures AddExplicit(AllPackages(env.tree.packages), s, env.tree).Ok?
    ensures AddMissing(AddExplicit(AllPackages(env.tree.packages), s, env.tree).value, s, env.tree,
                       env.installedOf(InstallPath(s.rosDistro))) == Ok(m)
  {
    assert GlobalFilter(AllPackages(env.tree.packages), s, filter) == AllPackages(env.tree.packages);
  }

  /** With unique names, adding the explicit packages to every source
      package changes no entry. */
  lemma ExplicitAgreesWithAll(s: Settings, t: SourceTree)
    requires UniqueNames(t.packages)
    requires AddExplicit(AllPackages(t.packages), s, t).Ok?
    ensures forall n :: n in AddExplicit(AllPackages(t.packages), s, t).value ==>
              n in AllPackages(t.packages) && AddExplicit(AllPackages(t.packages), s, t).value[n] == AllPackages(t.packages)[n]
  {
    var all := AllPackages(t.packages);
    var e := AddExplicit(all, s, t).value;
    forall n | n in e
      ensures n in all && e[n] == all[n]
    {
      if n in s.explicitPackages && n in Names(t.packages) {
        FirstIsLast(t.packages, n);
      }
    }
  }

  /** Adding missing upstream packages keeps a map that agrees with
      `AllPackages` in agreement with it. */
  lemma MissingAgreesWithAll(pkgs: PackageMap, s: Settings, t: SourceTree, installed: set<string>)
    requires forall n :: n in pkgs ==> n in AllPackages(t.packages) && pkgs[n] == AllPackages(t.packages)[n]
    requires AddMissing(pkgs, s, t, installed).Ok?
    ensures forall n :: n in AddMissing(pkgs, s, t, installed).value ==>
              AddMissing(pkgs, s, t, installed).value[n] == AllPackages(t.packages)[n]
  {
  }

  /** The diff packages are packages of the scan, under their names. */
  lemma {:induction false} CollectDiffFromSources(repos: RepoTable, env: Environment, acc: PackageMap)
    requires SourcePackages(acc, env.tree.packages)
    requires CollectDiff(repos, env, acc).Ok?
    ensures SourcePackages(CollectDiff(repos, env, acc).value, env.tree.packages)
    decreases |repos|
  {
    if repos != [] {
      CollectDiffFromSources(repos[1..], env, Merge(acc, Contribution(repos[0], env)));
    }
  }

  /** Whatever the settings, the target maps each name to a package of the
      scan with that name. */
  lemma TargetFromSources(s: Settings, env: Environment, m: PackageMap)
    requires ComposeTarget(s, env) == Ok(m)
    ensures SourcePackages(m, env.tree.packages)
  {
    var t := env.tree;
    var filter := ResolveFilter(s, t).value;
    var base := BasePackages(s, env, filter).value;
    if !s.completeOverlay {
      CollectDiffFromSources(s.repositories, env, map[]);
    }
    assert SourcePackages(base, t.packages);
    var filtered := GlobalFilter(base, s, filter);
    SubMapSourcePackages(filtered, base, t.packages);
  }

  /** Explicit packages are added after filtering, so every listed name the
      scan knows ends up in the target (brahma_update.py:168-175). */
  lemma ExplicitInTarget(s: Settings, env: Environment, m: PackageMap)
    requires ComposeTarget(s, env) == Ok(m)
    ensures forall n :: n in s.explicitPackages && n in Names(env.tree.packages) ==> n in m
  {
    var t := env.tree;
    var filter := ResolveFilter(s, t).value;
    var base := BasePackages(s, env, filter).value;
    var filtered := GlobalFilter(base, s, filter);
    var withExplicit := AddExplicit(filtered, s, t).value;
    var withMissing := AddMissing(withExplicit, s, t, env.installedOf(InstallPath(s.rosDistro))).value;
    assert withExplicit.Keys <= withMissing.Keys;
  }

  /** With every option off, the target is the diff packages; the missing
      upstream query still runs, so a cycle among them ends the run
      (brahma_update.py:177-189). */
  lemma DiffOnlyTarget(s: Settings, env: Environment)
    requires !s.completeOverlay && !s.includeUpstream && !s.includeDownstream && !s.includeMissing
    requires s.filterPackages == [] && s.explicitPackages == []
    ensures var diff := CollectDiff(s.repositories, env, map[]);
            && (diff.Err? ==> ComposeTarget(s, env) == diff)
            && (diff.Ok? && diff.value != map[] && !Acyclic(env.tree) ==> ComposeTarget(s, env).Err?)
            && (ComposeTarget(s, env).Ok? ==> ComposeTarget(s, env) == diff)
  {
    var diff := CollectDiff(s.repositories, env, map[]);
    assert ResolveFilter(s, env.tree) == Ok(None);
    if diff.Ok? {
      assert BasePackages(s, env, None) == Ok(diff.value);
      assert GlobalFilter(diff.value, s, None) == diff.value;
      assert AddExplicit(diff.value, s, env.tree) == Ok(diff.value);
    }
  }

  /** Outside the downstream-only scope, everything the diff and its
      dependencies bring is cut to the filter tree and roots; only explicit
      and missing packages get past it (brahma_update.py:161-166). */
  lemma GlobalFilterBoundsTarget(s: Settings, env: Environment, f: Filter, m: PackageMap)
    requires !s.completeOverlay && !s.onlyFilterDownstream && !s.includeMissing
    requires ResolveFilter(s, env.tree) == Ok(Some(f))
    requires ComposeTarget(s, env) == Ok(m)
    ensures forall n :: n in m ==> n in f.tree || n in f.roots || n in s.explicitPackages
  {
    var t := env.tree;
    var base := BasePackages(s, env, Some(f)).value;
    var filtered := GlobalFilter(base, s, Some(f));
    var withExplicit := AddExplicit(filtered, s, t).value;
    assert m == withExplicit;
  }

  /** What an update leaves behind: the composed target, the reconciliation
      plan for the overlay, and the settings as saved. */
  datatype Outcome = Outcome(target: PackageMap, plan: Plan, saved: Settings)

  /** `run` from package composition to the final save
      (brahma_update.py:48-215): applying the plan links exactly the target. */
  function Run(s: Settings, env: Environment, o: Overlay): (r: Result<Outcome>)
    ensures r.Ok? ==> SourcePackages(r.value.target, env.tree.packages)
    ensures r.Ok? ==> r.value.plan.link <= r.value.target.Keys
    ensures r.Ok? && RealLinks(r.value.target, o) ==> ApplyPlan(o, r.value.plan, r.value.target).links == TargetLinks(r.value.target)
    ensures r.Ok? ==> BuiltPackages(ApplyPlan(o, r.value.plan, r.value.target)) <= r.value.target.Keys
    ensures r.Ok? ==> SortedByKey(r.value.saved.filterPackages) && SortedByKey(r.value.saved.explicitPackages)
    ensures r.Ok? && s.completeOverlay ==> r.value.target.Keys == Names(env.tree.packages)
  {
    var target :- ComposeTarget(s, env);
    var plan :- UpdateAndCleanPackages(target, o, env.tree);
    TargetFromSources(s, env, target);
    NoOrphanedBuild(target, o, env.tree, plan);
    assert RealLinks(target, o) ==> ApplyPlan(o, plan, target).links == TargetLinks(target) by {
      if RealLinks(target, o) {
        ApplyReachesTarget(target, o, env.tree, plan);
      }
    }
    if s.completeOverlay then
      CompleteOverlayTarget(s, env, target);
      Ok(Outcome(target, plan, Save(s)))
    else
      Ok(Outcome(target, plan, Save(s)))
  }
}

=== FILE: wrappers.dfy ===
/** Failure-carrying results for the brahma model.

    Every `log.error` call in the tool ends the process (brahma/log.py prints
    the message and calls `sys.exit`), and the few raised exceptions end it as
    well. Each such site becomes one `Error` constructor, and the operation
    that reaches it returns `Err`.
 */
module Wrappers {

  datatype Option<+T> = None | Some(value: T)

  /** The fatal conditions of the modelled core. */
  datatype Error =
    /** The topological order of the source packages ends in an invalid entry. */
    | CyclicDependency(involved: string)
    /** A name lookup was asked of a directory without any catkin package. */
    | NoPackagesInDirectory
    /** Two repositories resolved the same packages from their diffs. */
    | DuplicateDiffPackages(names: set<string>)
    /** `getRepository` of a folder that does not exist. */
    | NoRepositoryFolder(dir: string)
    /** A repository of the diff loop whose diff cannot be read: the folder
        is no git repository, the initial checkout or fetch of the base
        branch fails, or the base branch does not resolve to a commit. */
    | DiffUnreadable(dir: string)
    /** Neither `ROS_DISTRO` nor a single installation under /opt/ros. */
    | NoRosInstalled
    | MultipleRosInstalled
    /** A repository URL without a name between its last '/' and '.git'. */
    | BadlyFormattedUrl(url: string)
    /** `cloneRepository` into an existing folder, or a failing clone. */
    | CloneIntoExistingFolder(dir: string)
    | CloneFailed(url: string)
    /** A folder the clone loop just created that cannot be used: the
        symlink cannot be made, `getRepository` finds no folder or no git
        repository, or fetching from `origin` fails. */
    | RepositoryNotUsable(dir: string)
    /** No `--gtest_output` argument (a `RuntimeError`). */
    | NoOutputFile
    /** `split(...)[1]` on a string without the separator (an `IndexError`). */
    | IndexOutOfRange

  datatype Result<+T> = Ok(value: T) | Err(error: Error) {

    predicate IsFailure() {
      Err?
    }

    function PropagateFailure<U>(): Result<U>
      requires Err?
    {
      Err(error)
    }

    function Extract(): T
      requires Ok?
    {
      value
    }
  }
}
